=== FILE: README.md ===
# Sudha Dairy & Bakers storefront — a Dafny model

This project models the core of the Sudha Dairy & Bakers storefront, a browser
shop for milk, bakery and sweets. It covers:

- the **cloth-bag checkout** sequencer: promise → delivery → details →
  payment → QR payment → success, with its guards, its back button and the
  order it hands over;
- the **cart store**: add, remove, the sidebar stepper and the trash button,
  the header's item count and the sidebar's price total;
- the smaller pieces around them:
  - the wishlist toggle, the product filter and what placing an order does to
    the page;
  - the birthday wall: wish counters, the wish-once buttons, the "show more"
    truncation and the add-birthday form;
  - the countdown hub: the day/hour/minute/second split, two-digit padding,
    category styling and the set-countdown form;
  - the festival calendar: month navigation, the holiday table, the month's
    holiday list and the founder's-birthday wish box.

Every operation is a pure function on immutable datatypes. React's state
setters become the function's result. Timers are immediate steps.

| file | module | what it holds |
|---|---|---|
| `wrappers.dfy` | `Wrappers` | `Option` |
| `text.dfy` | `Text` | `String.prototype.trim` over the ECMAScript white-space set, and `length` in UTF-16 code units |
| `seqs.dfy` | `Seqs` | the subsequence relation every `filter` result stands in |
| `checkout.dfy` | `Checkout` | the sequencer, its invariant and its scenarios |
| `catalogue.dfy` | `Catalogue` | products, categories, the fixed catalogue |
| `cart.dfy` | `Cart` | the cart store, its totals and its invariant |
| `storefront.dfy` | `Storefront` | wishlist, product filter, order placement, new countdowns |
| `birthdays.dfy` | `Birthdays` | the birthday wall, its section and its form |
| `countdown.dfy` | `Countdown` | countdown events, the time split, padding, styling |
| `countdown_form.dfy` | `CountdownForm` | the set-countdown form |
| `calendar.dfy` | `Calendar` | the festival calendar |

Points where the code's behaviour is easy to misread, and which the model
follows exactly:

- The details guard trims each field before testing it. A name of spaces is
  refused, and the mobile's length is taken after trimming. That length is
  JavaScript's `length`, counted in UTF-16 code units, so a character outside
  the Basic Multilingual Plane counts twice. The submit handler also repeats
  an untrimmed non-empty test, and the model keeps both.
- A payment proof counts only when it is a non-empty string. This is the
  component's `!paymentScreenshot` test.
- The back button is four separate `if`s on the step at render time. Exactly
  one of them fires, so the model uses a single one-step-back function.
- Picking a month tile in the calendar's year grid keeps the holiday card
  that was open, even when that holiday belongs to another month.
- The year grid's holiday chips select a holiday of any month, and the
  month shown does not change.

## Model

| member | source | states |
|---|---|---|
| Text.Trim | components/ClothBagModal.tsx:139-141 | the result is a slice of the input with only white space before and after it; it is empty exactly when the input is all white space, and otherwise starts and ends with a visible character |
| Text.TrimUntouched | components/ClothBagModal.tsx:139-141 | a string with visible first and last characters is its own trim |
| Text.TrimIdempotent | components/ClothBagModal.tsx:139-141 | trimming twice equals trimming once |
| Text.Utf16Length | components/ClothBagModal.tsx:140 | `length` lies between the number of characters and twice it; it equals the character count exactly when every character is in the Basic Multilingual Plane, and twice it exactly when none is |
| Text.Utf16Append | components/ClothBagModal.tsx:140 | the `length` of a concatenation is the sum of the two lengths |
| Text.Utf16Single | components/ClothBagModal.tsx:140 | one character is one code unit in the Basic Multilingual Plane and two outside it |
| Text.Utf16Mixed | components/ClothBagModal.tsx:140 | two digits followed by four emoji have `length` ten |
| Checkout.Next | components/ClothBagModal.tsx:28-168 | an action the modal does not offer at the current step changes nothing; only finishing the receipt emits an order, and finishing resets the session |
| Checkout.NextFollowsTable | components/ClothBagModal.tsx:42-168 | every step change is an edge of the independently written transition table (six forward, four back, the reset) |
| Checkout.NextKeepsInv | components/ClothBagModal.tsx:46-144 | every action keeps the reachability invariant: delivery set from details on, the shop address for pickup, online payment at the QR step, payment set and valid details at the receipt, proof for home delivery paid online |
| Checkout.NextKeepsStepInv | components/ClothBagModal.tsx:46-124 | every action keeps the choice part of the invariant |
| Checkout.NextDetailsFrame | components/ClothBagModal.tsx:55-60 | a payment-or-later step is reached either with the details unchanged from a later step or by the accepted submission |
| Checkout.FreshSessionKeepsInv | components/ClothBagModal.tsx:28-36 | any session at the promise step satisfies the invariant |
| Checkout.InitialIsPromise | components/ClothBagModal.tsx:28-44 | the initial session is at the promise, satisfies the invariant, and the promise leads to the delivery choice |
| Checkout.RunKeepsInv | components/ClothBagModal.tsx:42-168 | every session reachable by any sequence of actions satisfies the invariant |
| Checkout.SuccessIsComplete | components/ClothBagModal.tsx:126-129 | at the receipt both methods are chosen and the details pass the check |
| Checkout.ReachedSuccessIsComplete | components/ClothBagModal.tsx:42-168 | any run from the initial session that ends at the receipt has both methods and valid details |
| Checkout.ChooseDeliveryEffect | components/ClothBagModal.tsx:46-53 | choosing a method records it and moves to details; pickup sets the shop address, overwriting, home delivery clears it; name and mobile are kept |
| Checkout.SubmitDetailsGuard | components/ClothBagModal.tsx:55-60 | details advance to payment exactly when valid (name and address not blank, mobile at least ten UTF-16 code units after trimming); otherwise nothing changes |
| Checkout.MobileRefused | components/ClothBagModal.tsx:139-141 | any nine-digit mobile fails the check, whatever the name and address |
| Checkout.MobileAccepted | components/ClothBagModal.tsx:139-141 | any ten-digit mobile with a non-blank name and address passes the check |
| Checkout.AstralMobileAccepted | components/ClothBagModal.tsx:139-141 | five characters outside the Basic Multilingual Plane make a mobile of length ten, which passes |
| Checkout.ChoosePaymentEffect | components/ClothBagModal.tsx:100-108 | the method is recorded; online goes to the QR step, cash to the receipt |
| Checkout.ConfirmPaidGuard | components/ClothBagModal.tsx:121-124 | "I have Paid" reaches the receipt exactly when not (home delivery without proof); always for pickup |
| Checkout.AttachEnablesConfirm | components/ClothBagModal.tsx:110-124 | attaching a non-empty proof enables "I have Paid" |
| Checkout.BackIsOneStep | components/ClothBagModal.tsx:161-168 | back moves exactly one position down the forward order and changes only the step; at the promise and the receipt it does nothing |
| Checkout.BackFromPaymentKeepsDetails | components/ClothBagModal.tsx:161-168 | back from payment returns to details with the details intact, and resubmitting succeeds exactly when they are valid |
| Checkout.FinishEffect | components/ClothBagModal.tsx:126-137 | finishing emits the order exactly when both methods are set, with the entered details and proof, and resets every field |
| Checkout.PickupFillsDetails | components/ClothBagModal.tsx:42-53 | promise, pickup, name and mobile give the details form with the shop address |
| Checkout.CashAfterDetails | components/ClothBagModal.tsx:55-108 | valid details then cash reach the receipt with cash recorded |
| Checkout.PickupCashSkipsQr | components/ClothBagModal.tsx:42-108 | pickup paid in cash reaches the receipt in six actions without visiting the QR step |
| Checkout.PickupCashExample | components/ClothBagModal.tsx:42-108 | the worked example (Asha, 9876543210, pickup, cash) from the initial session reaches the receipt |
| Catalogue.CatalogueWellFormed | constants.ts:4-96 | catalogue ids are distinct, prices positive, and every category chip has a product |
| Cart.QuantityOf | App.tsx:117-139 | an id with no line holds no quantity |
| Cart.Find | App.tsx:119 | `find` returns a line with the id, and finds none exactly when the id has no line |
| Cart.MapQuantity | App.tsx:121-123 | the per-line map keeps length, ids and products, and changes only the quantities of the id's lines |
| Cart.Without | App.tsx:133 | the filter keeps exactly the lines of other ids, unchanged and in their order, so the id leaves the cart's ids |
| Cart.KeepPositive | App.tsx:355 | the filter keeps exactly the lines with a positive quantity, unchanged and in their order; a positive cart comes back as it is |
| Cart.AddToCart | App.tsx:117-127 | adding keeps the cart valid and the other lines untouched; a present product gains exactly one in its own place, with every line's product where it was; a new one is appended with quantity 1 |
| Cart.RemoveFromCart | App.tsx:129-139 | removing keeps the cart valid and the other lines untouched; it loses exactly one, the line vanishes exactly when it held one and otherwise keeps its place, and an absent id leaves the cart as it is |
| Cart.UpdateQuantity | App.tsx:354-355 | after the stepper every quantity is positive and ids stay distinct |
| Cart.UpdateQuantityEffect | App.tsx:354-355 | on a valid cart the stepper leaves other lines in place, sets the line to max(0, q + delta), and the line stays, in its place, exactly when that is at least 1 |
| Cart.DeleteLine | App.tsx:357 | the trash button removes exactly the id, keeping every other quantity and the cart valid |
| Cart.Summary | components/CartSidebar.tsx:109-122 | the footer shows exactly when the cart is non-empty; subtotal and total are both the price total, delivery is free |
| Cart.AddCountsOne | App.tsx:117-127 | adding raises the item count by exactly one |
| Cart.RemoveCountsOne | App.tsx:129-139 | removing a present product lowers the item count by exactly one, an absent one leaves it |
| Cart.UpdateCounts | App.tsx:354-355 | the stepper changes the item count by the change of the one line |
| Cart.DeleteCounts | App.tsx:357 | the trash button lowers the item count by the whole line |
| Cart.PlusIsAdd | components/CartSidebar.tsx:88 | the stepper's plus equals the card's add for a product in the cart |
| Cart.MinusIsRemove | components/CartSidebar.tsx:81 | the stepper's minus equals the card's remove for a product in the cart |
| Cart.TotalItemsSplit | App.tsx:237 | the item count is one id's quantity plus the count of the other lines |
| Cart.TotalPriceAppend | components/CartSidebar.tsx:18 | the price total of two carts joined is the sum of their totals, so appending a line adds exactly price × quantity |
| Cart.LineWithinTotal | components/CartSidebar.tsx:18 | with no negative line, the total is at least every line's subtotal |
| Cart.NonNegativeTotal | components/CartSidebar.tsx:18 | with no negative line, the total is not negative |
| Cart.AddTwiceRemoveTwice | App.tsx:117-139 | add, add, remove, remove of one product totals one, two, one unit price and ends with an empty cart and no footer |
| Cart.MilkTotals | constants.ts:4-12 | Full Cream Milk at 66 totals 66 once and 132 twice |
| Cart.Press | components/CartSidebar.tsx:80-102 | each sidebar button keeps the cart valid and leaves other lines untouched |
| Cart.ActionsKeepValid | App.tsx:117-139 | any sequence of card and sidebar actions keeps ids distinct and every quantity at least one |
| Cart.EmptyCartValid | App.tsx:23 | the empty cart is valid, counts 0, totals 0 and shows no footer |
| Storefront.ToggleWishlist | App.tsx:146-153 | toggling flips the id's membership and no other, changing the size by one |
| Storefront.ToggleTwice | App.tsx:146-153 | toggling twice restores the wishlist |
| Storefront.FilterProducts | App.tsx:101-111 | a product is shown exactly when it is in the list and passes both the chip test and the search test |
| Storefront.FilterKeepsOrder | App.tsx:101-111 | the shown products are the catalogue's in its order, some dropped |
| Storefront.AllAndEmptyShowsEverything | App.tsx:101-111 | the `All` chip with an empty search shows every product |
| Storefront.ChipsRestrict | App.tsx:103-106 | the wishlist chip shows only wishlisted products, a category chip only that category |
| Storefront.FinalOrderPlace | App.tsx:207-217 | placing an order empties the cart, resets chip and search, keeps the wishlist, and counts the order only for a signed-in user |
| Storefront.AfterCheckout | App.tsx:207-217 | places the order when one is emitted: the cart empties, chip and search reset, the wishlist stays and a signed-in user's order count rises by one; with no order the page is unchanged |
| Storefront.OnlyFinishTouchesPage | components/ClothBagModal.tsx:126-137 | only the receipt's Finish button reaches the page; every other checkout step leaves it unchanged |
| Storefront.FinishingPlacesOrder | App.tsx:207-217 | finishing a reached receipt always emits the order, empties the cart and adds one to a signed-in user's orders |
| Storefront.SetCountdown | App.tsx:193-200 | the new countdown goes first, under the given id, with the rest kept |
| Storefront.StoredCountdownHasTime | App.tsx:193-200 | a countdown stored from an accepted form keeps its name, category and creator, and its date starts with the typed date and has a time part |
| Birthdays.Count | App.tsx:155-171 | the number of customers with an id is at most the wall's size, and 0 exactly when no customer has it |
| Birthdays.HandleWish | App.tsx:155-165 | only the id's customers change: one more wish, the message appended last, nothing else |
| Birthdays.HandleQuickWish | App.tsx:167-171 | only the id's customers change, by one more wish |
| Birthdays.WishTotal | App.tsx:155-165 | a wish raises the total by the number of customers with the id |
| Birthdays.QuickWishTotal | App.tsx:167-171 | a quick wish raises the total by the number of customers with the id |
| Birthdays.WishMovesTotal | App.tsx:155-165 | a wish raises the total exactly when its customer is on the wall, and otherwise leaves the wall as it is |
| Birthdays.AddBirthday | App.tsx:182-191 | a new birthday goes first, with the given id, no wishes, and the form's fields |
| Birthdays.AddKeepsTotal | App.tsx:182-191 | adding a birthday leaves the wish total unchanged |
| Birthdays.OnWishClick | components/BirthdaySection.tsx:21-24 | "Wish Them" on a wished customer does nothing, otherwise opens the dialog for them |
| Birthdays.OnQuickWishClick | components/BirthdaySection.tsx:26-31 | a quick wish tells the wall exactly when the customer was not yet wished, and marks them |
| Birthdays.OnSubmitWish | components/BirthdaySection.tsx:60-68 | with a field empty or no open dialog nothing happens; otherwise the customer is marked, the wall gets the wish, the dialog closes |
| Birthdays.SectionStep | components/BirthdaySection.tsx:21-68 | actions the page does not offer change nothing; the wished set only grows, and under the invariant a notice names a customer not yet wished |
| Birthdays.WishOnce | components/BirthdaySection.tsx:21-68 | over any sequence of actions the wall hears about each customer at most once, and never about one already wished |
| Birthdays.Displayed | components/BirthdaySection.tsx:80 | the shown list is a prefix: everything with "show all", otherwise the first min(4, n) |
| Birthdays.ToggleNeeded | components/BirthdaySection.tsx:180 | without the toggle nobody is hidden; with it, "less" hides someone |
| Birthdays.AvatarUrl | components/BirthdayFormModal.tsx:44 | the avatar address is the fixed base followed by the name |
| Birthdays.AvatarInjective | components/BirthdayFormModal.tsx:44 | different names give different avatars |
| Birthdays.SubmitBirthday | components/BirthdayFormModal.tsx:39-53 | a nameless form is ignored; otherwise the fields go out as typed, the avatar replaces a missing photo, and the form resets |
| Birthdays.SubmittedHasPhoto | components/BirthdayFormModal.tsx:44 | every submitted birthday has a photo |
| Birthdays.FileChange | components/BirthdayFormModal.tsx:24-37 | no file or one over 2 MiB leaves the form; otherwise only the photo changes |
| Birthdays.PhotoLimitBoundary | components/BirthdayFormModal.tsx:27-30 | exactly 2 MiB is accepted, one byte more refused |
| Birthdays.PhotoFromSmallFile | components/BirthdayFormModal.tsx:24-37 | after any number of file choices the photo is the original one or the data URL of a chosen file of at most 2 MiB |
| Countdown.Split | components/CountdownModal.tsx:50-58 | a passed target shows zeros; otherwise days are whole days, the units are in clock range, and the split recomposes to within a second below the distance |
| Countdown.SplitRemainders | components/CountdownModal.tsx:56-58 | the remainder by a unit equals the remainder by the larger unit taken again by it |
| Countdown.ZeroDistance | components/CountdownModal.tsx:50-58 | a distance of 0 shows all zeros |
| Countdown.LexMillis | components/CountdownModal.tsx:55-58 | among normal splits, lexicographic order agrees with duration, a second apart |
| Countdown.SplitMonotone | components/CountdownModal.tsx:50-58 | less time left never shows a larger countdown |
| Countdown.ToDecimal | components/CountdownModal.tsx:93 | the decimal form is digits with no leading zero except for 0 itself, one digit exactly below 10 |
| Countdown.DecimalRoundTrip | components/CountdownModal.tsx:93 | reading back the decimal form gives the number |
| Countdown.PadStart | components/CountdownModal.tsx:93 | padding reaches the width, keeps the string as a suffix, and fills only with the fill character |
| Countdown.Pad2 | components/CountdownModal.tsx:93 | values 0–9 show a leading zero and one digit, larger values their plain decimal form |
| Countdown.Pad2RoundTrip | components/CountdownModal.tsx:93 | the padded form reads back as the value |
| Countdown.CategoryIcon | components/CountdownModal.tsx:69-76 | the timer icon is used exactly for the category with no case of its own |
| Countdown.CategoryColor | components/CountdownModal.tsx:78-85 | the default colour is used exactly for the category with no case of its own |
| Countdown.StylesDistinct | components/CountdownModal.tsx:69-85 | different categories get different colours and icons |
| CountdownForm.NormalizeDate | components/SetCountdownModal.tsx:27 | the result starts with the input and contains `T`; it equals the input exactly when the input had a `T`, and otherwise appends exactly `T00:00:00` |
| CountdownForm.NormalizeIdempotent | components/SetCountdownModal.tsx:27 | normalising twice equals normalising once |
| CountdownForm.Submit | components/SetCountdownModal.tsx:22-36 | a missing field is refused with the form kept open; otherwise the fields go out as typed with the date normalised, the modal closes and the form resets |
| CountdownForm.PickCategory | components/SetCountdownModal.tsx:76 | the picker changes the category and nothing else |
| CountdownForm.PickedCategorySubmitted | components/SetCountdownModal.tsx:22-36 | after any picks, a complete form submits the category picked last, with the other fields as typed |
| CountdownForm.NoDoubleSubmit | components/SetCountdownModal.tsx:24-35 | after a successful submit the reset form is refused |
| CountdownForm.SubmittedDateHasTime | components/SetCountdownModal.tsx:27 | a submitted countdown's date always has a time part |
| Calendar.NextMonth | components/CalendarModal.tsx:257-258 | next is (m + 1) mod 12 |
| Calendar.PrevMonth | components/CalendarModal.tsx:259-260 | previous is (m + 11) mod 12 |
| Calendar.ActiveStyle | components/CalendarModal.tsx:129 | every month index picks an entry of the style table |
| Calendar.NextPrevInverse | components/CalendarModal.tsx:256-261 | next then previous, and previous then next, give the same month |
| Calendar.NextTimesIsMod | components/CalendarModal.tsx:256-258 | k presses of next give (m + k) mod 12 |
| Calendar.TwelveNextsIdentity | components/CalendarModal.tsx:256-258 | twelve presses of next return to the same month |
| Calendar.TableAscending | components/CalendarModal.tsx:45-79 | the holiday table is in strictly increasing (month, day) order with valid days |
| Calendar.AscendingStrict | components/CalendarModal.tsx:45-79 | in an ascending table every later entry falls strictly later |
| Calendar.KeysUnique | components/CalendarModal.tsx:45-79 | no two holidays share a (day, month) |
| Calendar.OneFounder | components/CalendarModal.tsx:60-70 | exactly one entry, on 25 February, is the founder's birthday |
| Calendar.FindHoliday | components/CalendarModal.tsx:388 | the lookup returns a holiday on that day from the table, and none exactly when none falls on it |
| Calendar.DayHoliday | components/CalendarModal.tsx:388 | a day cell's holiday falls on that day of the shown month |
| Calendar.DayHolidayExact | components/CalendarModal.tsx:388 | every holiday is the one its own day cell shows |
| Calendar.FindFounder | components/CalendarModal.tsx:275 | the founder lookup returns a founder entry, and none exactly when there is none |
| Calendar.FounderFound | components/CalendarModal.tsx:275 | the founder lookup in the wish handler always succeeds |
| Calendar.InMonth | components/CalendarModal.tsx:254 | the month filter keeps exactly the entries of that month |
| Calendar.Insert | components/CalendarModal.tsx:254 | insertion adds one element and keeps a date-sorted list sorted |
| Calendar.SortByDate | components/CalendarModal.tsx:254 | the sort is a permutation and is sorted by date |
| Calendar.SortSorted | components/CalendarModal.tsx:254 | sorting an already sorted list leaves it as it is |
| Calendar.MonthHolidays | components/CalendarModal.tsx:254 | the month's list is sorted by date and a permutation of the month's entries |
| Calendar.InMonthAscending | components/CalendarModal.tsx:254 | filtering an ascending table keeps it ascending |
| Calendar.AscendingCons | components/CalendarModal.tsx:45-79 | an entry earlier than an ascending list's head extends it |
| Calendar.SameMonthSorted | components/CalendarModal.tsx:254 | within one month, ascending keys are ascending dates |
| Calendar.MonthHolidaysExact | components/CalendarModal.tsx:254 | the month's list is exactly the table's entries for that month, in table order |
| Calendar.NavigateMonth | components/CalendarModal.tsx:256-265 | navigating moves one month with wrap-around and clears the selection, the sent flag and the message |
| Calendar.NavigateBack | components/CalendarModal.tsx:256-265 | forward then back returns to the same month |
| Calendar.SelectMonthFromYear | components/CalendarModal.tsx:267-270 | picking a month shows it and leaves the year grid, keeping the rest |
| Calendar.SelectHoliday | components/CalendarModal.tsx:236-240 | selecting a holiday selects it and resets the sent flag, keeping the rest |
| Calendar.SendFounderWish | components/CalendarModal.tsx:272-278 | a blank message changes nothing; otherwise the wish is sent and the box cleared |
| Calendar.PaddedWishSent | components/CalendarModal.tsx:272-278 | a message with any visible character is sent |
| Calendar.Opened | components/CalendarModal.tsx:121-125 | the calendar opens on the given month in the month view, with nothing selected and no wish sent |
| Calendar.CalendarStep | components/CalendarModal.tsx:256-278 | a control the calendar does not render changes nothing (a holiday of another month is offered only as a year-grid chip); every control keeps the invariant; a wish becomes sent only by sending from the founder's card |
| Calendar.RunCalendarKeepsInv | components/CalendarModal.tsx:236-278 | after any sequence of controls, year-grid chips included, a sent wish leaves the box empty and the selection is an entry of the table |
| Calendar.OpenedKeepsInv | components/CalendarModal.tsx:121-125 | every state reached from an opened calendar keeps the invariant |
| Calendar.YearPickKeepsSelection | components/CalendarModal.tsx:267-270 | a month tile changes only the month and the view, keeping the open holiday card |
| Calendar.YearChipSelects | components/CalendarModal.tsx:350-353 | in the year grid any holiday's chip opens its card, whatever month is shown, and clears a sent wish |

## Left out

- Rendering, CSS classes, animation and the confetti bursts. They are
  presentation only and make no contract.
- Timers:
  - the 500 ms reset after finishing the checkout, the sidebar's confirm delay
    and the product-grid loading flash are taken as immediate;
  - the countdown interval is reduced to one tick as a function of the
    distance in milliseconds.
- Clock and `Date`:
  - `Date.now()` ids and `toISOString` timestamps are parameters (`id`,
    `postedAt`);
  - the current time is folded into the distance given to `Countdown.Split`;
  - `getDaysInMonth`, `getDay` and date formatting are not modelled.
- `FileReader` and the clipboard: a chosen file is given as its size and its
  data URL, and reading it is immediate. The QR-code URL and `window.open` are
  not modelled.
- services/geminiService.ts and components/AIChat.tsx. These are network
  calls to an external language model.
- Header, AuthModal, CollabModal, UserProfileModal, WishesWallModal,
  ProductCard and ProductSkeleton. They are layout, mocked login or display
  only. PersonalWishModal's two-field check is folded into
  `Birthdays.OnSubmitWish`.
- Storefront.FilterProducts: `toLowerCase` is a function parameter, because
  Unicode case mapping is not modelled. `includes` is modelled exactly, as a
  substring test.
- Text.Trim: characters are Unicode scalar values, not UTF-16 code units.
  Every white-space character `trim` removes is in the Basic Multilingual
  Plane, so the trimmed string is the same. Its length is measured in UTF-16
  code units by `Text.Utf16Length`. A lone surrogate cannot be written as a
  Dafny character, so strings holding one are not modelled.
- Checkout.Next: closing the modal with its X or the backdrop before the
  receipt keeps the session as it is, which is the same as offering no action.
  The ghost invariant `Checkout.Inv` is stated for sessions, not for the open
  or closed state of the modal.
- Birthdays.FileChange: the `alert` that tells the user a file over 2 MB was
  refused (components/BirthdayFormModal.tsx:28) is not modelled. It is a
  blocking browser dialog and changes no state; the model keeps only the
  refusal itself, which leaves the form as it was.
- Birthdays.SectionStep: the personal-wish dialog covers the page, so while it
  is open the wall's buttons are not offered. At the handler level, a quick
  wish for the same customer while the dialog is open would let a second wish
  through.
- Calendar.CalendarStep: the holiday emoji and the "Launch Icons!" button
  only start confetti and change no state, and the calendar's own close
  button belongs to the page. None of them is an event of the model.
- Countdown.Split: JavaScript numbers are doubles. The model takes the
  distance as a whole number of milliseconds, which `getTime` differences are
  for valid dates. An unparsable target date gives `NaN`, which the model does
  not represent.
- Storefront.FinalOrderPlace: closing the checkout modal (App.tsx:209) and the
  smooth scroll to the top (App.tsx:212) are not modelled. The page state
  holds no modal flags, and scrolling is presentation.
- Storefront.SetCountdown: opening the countdown modal after storing the event
  (App.tsx:199) is not modelled, because the page state holds no modal flags.
- Prices and quantities are unbounded integers; every catalogue price is a
  whole number of rupees.
- The default countdown events, the two sample birthdays and the catalogue's
  images and descriptions are fixture data and not modelled.

=== FILE: birthdays.dfy ===
/** The birthday wall: the customers on it and their wish counters, the
    section's wish buttons (each customer can be wished once per visit), the
    "show more" truncation, and the form that adds a birthday. */
module Birthdays {
  import opened Wrappers

  datatype PersonalWish = PersonalWish(senderName: string, message: string)

  /** A customer on the wall. `instagram` is `""` when not given. */
  datatype BirthdayCustomer = BirthdayCustomer(
    id: string, name: string, photo: string, instagram: string, wish: string,
    wishCount: int, personalWishes: seq<PersonalWish>, postedAt: string)

  type Wall = seq<BirthdayCustomer>

  /** How many customers carry `id`: none exactly when no entry has it. */
  function Count(bs: Wall, id: string): (n: nat)
    ensures n <= |bs|
    ensures n == 0 <==> forall k :: 0 <= k < |bs| ==> bs[k].id != id
  {
    if bs == [] then 0 else (if bs[0].id == id then 1 else 0) + Count(bs[1..], id)
  }

  /** `totalWishes`: the wish counters summed. */
  function TotalWishes(bs: Wall): int {
    if bs == [] then 0 else bs[0].wishCount + TotalWishes(bs[1..])
  }

  // ---------------------------------------------------------------------------
  // The wall's reducers.

  /** `handleWish`: the customer with `id` gets one more wish, the message
      appended after the earlier ones; everyone else is unchanged. */
  function HandleWish(bs: Wall, id: string, pw: PersonalWish): (r: Wall)
    ensures |r| == |bs|
    ensures forall k :: 0 <= k < |r| && bs[k].id != id ==> r[k] == bs[k]
    ensures forall k :: 0 <= k < |r| && bs[k].id == id ==>
      r[k].wishCount == bs[k].wishCount + 1 &&
      r[k].personalWishes == bs[k].personalWishes + [pw] &&
      r[k].(wishCount := 0, personalWishes := []) == bs[k].(wishCount := 0, personalWishes := [])
  {
    if bs == [] then []
    else
      var b := bs[0];
      var b' := if b.id == id then b.(wishCount := b.wishCount + 1, personalWishes := b.personalWishes + [pw]) else b;
      [b'] + HandleWish(bs[1..], id, pw)
  }

  /** `handleQuickWish`: the customer with `id` gets one more wish and no
      message; everyone else is unchanged. */
  function HandleQuickWish(bs: Wall, id: string): (r: Wall)
    ensures |r| == |bs|
    ensures forall k :: 0 <= k < |r| && bs[k].id != id ==> r[k] == bs[k]
    ensures forall k :: 0 <= k < |r| && bs[k].id == id ==> r[k] == bs[k].(wishCount := bs[k].wishCount + 1)
  {
    if bs == [] then []
    else
      var b := bs[0];
      [if b.id == id then b.(wishCount := b.wishCount + 1) else b] + HandleQuickWish(bs[1..], id)
  }

  /** A wish raises the wall's total by the number of customers it reaches:
      by one when ids are unique and the id is on the wall. */
  lemma {:induction false} WishTotal(bs: Wall, id: string, pw: PersonalWish)
    ensures TotalWishes(HandleWish(bs, id, pw)) == TotalWishes(bs) + Count(bs, id)
  {
    if bs != [] {
      WishTotal(bs[1..], id, pw);
      assert HandleWish(bs, id, pw)[1..] == HandleWish(bs[1..], id, pw);
    }
  }

  lemma {:induction false} QuickWishTotal(bs: Wall, id: string)
    ensures TotalWishes(HandleQuickWish(bs, id)) == TotalWishes(bs) + Count(bs, id)
  {
    if bs != [] {
      QuickWishTotal(bs[1..], id);
      assert HandleQuickWish(bs, id)[1..] == HandleQuickWish(bs[1..], id);
    }
  }

  /** A wish for a customer on the wall raises the total; one for an id no
      longer on it leaves the total alone. */
  lemma WishMovesTotal(bs: Wall, id: string, pw: PersonalWish)
    ensures (exists k :: 0 <= k < |bs| && bs[k].id == id) <==>
            TotalWishes(HandleWish(bs, id, pw)) > TotalWishes(bs)
    ensures (forall k :: 0 <= k < |bs| ==> bs[k].id != id) ==>
            HandleWish(bs, id, pw) == bs
  {
    WishTotal(bs, id, pw);
    var r := HandleWish(bs, id, pw);
    if forall k :: 0 <= k < |bs| ==> bs[k].id != id {
      assert forall k :: 0 <= k < |r| ==> r[k] == bs[k];
    }
  }

  /** What the birthday form hands over. */
  datatype BirthdayData = BirthdayData(name: string, photo: string, instagram: string, wish: string)

  /** `handleBirthdaySubmit`: the new customer goes first, with no wishes yet.
      The id and timestamp come from the clock and are parameters here. */
  function AddBirthday(bs: Wall, data: BirthdayData, id: string, postedAt: string): (r: Wall)
    ensures |r| == |bs| + 1 && r[1..] == bs
    ensures r[0].id == id && r[0].wishCount == 0 && r[0].personalWishes == []
    ensures r[0].name == data.name && r[0].photo == data.photo &&
            r[0].instagram == data.instagram && r[0].wish == data.wish
  {
    [BirthdayCustomer(id, data.name, data.photo, data.instagram, data.wish, 0, [], postedAt)] + bs
  }

  /** A new birthday leaves the wish total as it was. */
  lemma AddKeepsTotal(bs: Wall, data: BirthdayData, id: string, postedAt: string)
    ensures TotalWishes(AddBirthday(bs, data, id, postedAt)) == TotalWishes(bs)
  {
    assert AddBirthday(bs, data, id, postedAt)[1..] == bs;
  }

  // ---------------------------------------------------------------------------
  // The section's wish buttons.

  /** The section's own state: the ids wished during this visit, the
      customer whose personal-wish dialog is open, and the "show more" flag. */
  datatype SectionState = SectionState(wished: set<string>, pending: Option<string>, showAll: bool)

  const FRESH_SECTION := SectionState({}, None, false)

  /** What the section hands up to the wall. */
  datatype Notice = QuickWished(id: string) | Wished(id: string, wish: PersonalWish)

  datatype SectionEvent =
    | WishClick(id: string)
    | QuickWishClick(id: string)
    | SubmitWish(senderName: string, message: string)
    | CloseWish
    | ToggleShowAll

  /** `handleWishClick`: opens the dialog for a customer not yet wished. */
  function OnWishClick(st: SectionState, id: string): (r: SectionState)
    ensures id in st.wished ==> r == st
    ensures id !in st.wished ==> r == st.(pending := Some(id))
  {
    if id in st.wished then st else st.(pending := Some(id))
  }

  /** `handleQuickWishClick`: a customer not yet wished is marked and the
      wall is told once; a wished one is ignored. */
  function OnQuickWishClick(st: SectionState, id: string): (r: (SectionState, Option<Notice>))
    ensures id in st.wished <==> r.1.None?
    ensures r.1.Some? ==> r.1.value == QuickWished(id)
    ensures r.0.wished == st.wished + {id} && r.0.pending == st.pending && r.0.showAll == st.showAll
  {
    if id in st.wished then (st, None) else (st.(wished := st.wished + {id}), Some(QuickWished(id)))
  }

  /** `handleWishSubmit`, behind the dialog's own check that both fields are
      filled: with no open dialog nothing happens; otherwise the customer is
      marked, the wall gets the wish and the dialog closes. An empty id counts
      as no dialog, as the handler's falsiness test does. */
  function OnSubmitWish(st: SectionState, senderName: string, message: string): (r: (SectionState, Option<Notice>))
    ensures (senderName == "" || message == "" || st.pending.None? || st.pending.value == "") ==> r == (st, None)
    ensures senderName != "" && message != "" && st.pending.Some? && st.pending.value != "" ==>
      r.1 == Some(Wished(st.pending.value, PersonalWish(senderName, message))) &&
      r.0 == SectionState(st.wished + {st.pending.value}, None, st.showAll)
  {
    if senderName == "" || message == "" then (st, None)
    else if st.pending.None? || st.pending.value == "" then (st, None)
    else
      var id := st.pending.value;
      (SectionState(st.wished + {id}, None, st.showAll), Some(Wished(id, PersonalWish(senderName, message))))
  }

  /** While the personal-wish dialog is open it covers the page, so only its
      own submit and close are reachable; otherwise only the wall's buttons. */
  predicate SectionOffered(st: SectionState, e: SectionEvent) {
    match e
    case SubmitWish(_, _) => st.pending.Some?
    case CloseWish => st.pending.Some?
    case _ => st.pending.None?
  }

  /** An open dialog is always for a customer not yet wished. */
  predicate SectionInv(st: SectionState) {
    st.pending.Some? ==> st.pending.value !in st.wished
  }

  /** One user action on the section, with what it hands up to the wall. */
  function SectionStep(st: SectionState, e: SectionEvent): (r: (SectionState, Option<Notice>))
    ensures !SectionOffered(st, e) ==> r == (st, None)
    ensures st.wished <= r.0.wished
    ensures r.1.Some? ==> r.0.wished == st.wished + {r.1.value.id}
    ensures SectionInv(st) ==> SectionInv(r.0) && (r.1.Some? ==> r.1.value.id !in st.wished)
  {
    if !SectionOffered(st, e) then (st, None)
    else match e
      case WishClick(id) => (OnWishClick(st, id), None)
      case QuickWishClick(id) => OnQuickWishClick(st, id)
      case SubmitWish(s, m) => OnSubmitWish(st, s, m)
      case CloseWish => (st.(pending := None), None)
      case ToggleShowAll => (st.(showAll := !st.showAll), None)
  }

  /** The notices a sequence of actions hands up, and the final state. */
  function RunSection(st: SectionState, es: seq<SectionEvent>): (r: (SectionState, seq<Notice>))
    decreases |es|
  {
    if es == [] then (st, [])
    else
      var (st1, n) := SectionStep(st, es[0]);
      var (st2, ns) := RunSection(st1, es[1..]);
      (st2, (if n.Some? then [n.value] else []) + ns)
  }

  /** How many notices name `id`. */
  function Notices(ns: seq<Notice>, id: string): nat {
    if ns == [] then 0 else (if ns[0].id == id then 1 else 0) + Notices(ns[1..], id)
  }

  /** Wish once: over any sequence of actions the wall hears about each
      customer at most once, and never about one already wished. */
  lemma {:induction false} WishOnce(st: SectionState, es: seq<SectionEvent>, id: string)
    requires SectionInv(st)
    ensures var (st', ns) := RunSection(st, es);
      st.wished <= st'.wished &&
      Notices(ns, id) <= (if id in st.wished then 0 else 1) &&
      (Notices(ns, id) == 1 ==> id in st'.wished)
    decreases |es|
  {
    if es != [] {
      var (st1, n) := SectionStep(st, es[0]);
      WishOnce(st1, es[1..], id);
      var (st2, ns) := RunSection(st1, es[1..]);
      var head := if n.Some? then [n.value] else [];
      assert RunSection(st, es).1 == head + ns;
      assert (head + ns)[|head|..] == ns;
      if n.Some? {
        assert (head + ns)[1..] == ns;
      }
    }
  }

  /** `displayedBirthdays`: the first four, or all of them. */
  function Displayed(bs: Wall, showAll: bool): (r: Wall)
    ensures showAll ==> r == bs
    ensures !showAll ==> |r| == (if |bs| < 4 then |bs| else 4)
    ensures r == bs[..|r|]
  {
    if showAll || |bs| <= 4 then bs else bs[..4]
  }

  /** The "more / less" toggle is shown only above four birthdays. */
  predicate ToggleShown(bs: Wall) {
    |bs| > 4
  }

  /** Without the toggle nobody is hidden; with it, "less" hides someone. */
  lemma ToggleNeeded(bs: Wall)
    ensures !ToggleShown(bs) ==> Displayed(bs, false) == bs
    ensures ToggleShown(bs) ==> |Displayed(bs, false)| < |Displayed(bs, true)|
  {}

  // ---------------------------------------------------------------------------
  // The "add my birthday" form.

  datatype BirthdayForm = BirthdayForm(name: string, photo: string, instagram: string, wish: string)

  /** The wish the form starts with: "Celebrating my special day with Sudha
      Dairy & Bakers!" followed by a cake and a sparkle. */
  const DEFAULT_WISH := "Celebrating my special day " + "with Sudha Dairy & Bakers! " + "\U{1F370}\U{2728}"

  const INITIAL_FORM := BirthdayForm("", "", "", DEFAULT_WISH)

  const AVATAR_BASE := "https://api.dicebear.com/" + "7.x/avataaars/svg?seed="

  /** The generated avatar for a customer who gave no photo. */
  function AvatarUrl(name: string): (u: string)
    ensures |u| == |AVATAR_BASE| + |name|
    ensures u[..|AVATAR_BASE|] == AVATAR_BASE && u[|AVATAR_BASE|..] == name
  {
    AVATAR_BASE + name
  }

  /** Different names get different avatars. */
  lemma AvatarInjective(n1: string, n2: string)
    requires AvatarUrl(n1) == AvatarUrl(n2)
    ensures n1 == n2
  {
    assert n1 == AvatarUrl(n1)[|AVATAR_BASE|..];
  }

  datatype FormResult = FormResult(form: BirthdayForm, submitted: Option<BirthdayData>, closed: bool)

  /** `handleSubmit`: a nameless form is ignored; otherwise the data goes out
      with the avatar standing in for a missing photo, and the form resets. */
  function SubmitBirthday(form: BirthdayForm): (r: FormResult)
    ensures form.name == "" ==> r == FormResult(form, None, false)
    ensures form.name != "" ==> r.closed && r.form == INITIAL_FORM && r.submitted.Some?
    ensures r.submitted.Some? ==>
      r.submitted.value.name == form.name &&
      r.submitted.value.photo == (if form.photo == "" then AvatarUrl(form.name) else form.photo) &&
      r.submitted.value.instagram == form.instagram && r.submitted.value.wish == form.wish
  {
    if form.name == "" then FormResult(form, None, false)
    else
      var photo := if form.photo == "" then AvatarUrl(form.name) else form.photo;
      FormResult(INITIAL_FORM, Some(BirthdayData(form.name, photo, form.instagram, form.wish)), true)
  }

  /** Every submitted birthday has a photo. */
  lemma SubmittedHasPhoto(form: BirthdayForm)
    requires SubmitBirthday(form).submitted.Some?
    ensures SubmitBirthday(form).submitted.value.photo != ""
  {
    var p := SubmitBirthday(form).submitted.value.photo;
    if form.photo == "" {
      assert |p| >= |AVATAR_BASE|;
    }
  }

  const MAX_PHOTO_BYTES := 2 * 1024 * 1024

  /** A chosen file: its size and its contents as a data URL. */
  datatype PhotoFile = PhotoFile(size: int, dataUrl: string)

  /** `handleFileChange`: no file or one over 2 MiB leaves the photo as it
      was; otherwise its data URL becomes the photo. Reading the file is
      taken as immediate. */
  function FileChange(form: BirthdayForm, file: Option<PhotoFile>): (r: BirthdayForm)
    ensures r.name == form.name && r.instagram == form.instagram && r.wish == form.wish
    ensures file.None? || file.value.size > MAX_PHOTO_BYTES ==> r == form
    ensures file.Some? && file.value.size <= MAX_PHOTO_BYTES ==> r.photo == file.value.dataUrl
  {
    match file
    case None => form
    case Some(f) => if f.size > 2 * 1024 * 1024 then form else form.(photo := f.dataUrl)
  }

  /** Exactly 2 MiB is accepted, one byte more is refused. */
  lemma PhotoLimitBoundary(form: BirthdayForm, url: string)
    ensures FileChange(form, Some(PhotoFile(2097152, url))).photo == url
    ensures FileChange(form, Some(PhotoFile(2097153, url))) == form
  {}

  /** The form after the photo input fired once for every entry of `files`. */
  function FileChanges(form: BirthdayForm, files: seq<Option<PhotoFile>>): BirthdayForm
    decreases |files|
  {
    if files == [] then form else FileChanges(FileChange(form, files[0]), files[1..])
  }

  /** However often the photo is changed, the form's photo is either the one it
      started with or the data URL of a chosen file of at most 2 MiB. */
  lemma {:induction false} PhotoFromSmallFile(form: BirthdayForm, files: seq<Option<PhotoFile>>)
    ensures var r := FileChanges(form, files);
      r.photo == form.photo ||
      exists k :: 0 <= k < |files| && files[k].Some? && files[k].value.size <= MAX_PHOTO_BYTES &&
                  r.photo == files[k].value.dataUrl
    decreases |files|
  {
    if files != [] {
      var next := FileChange(form, files[0]);
      PhotoFromSmallFile(next, files[1..]);
      var r := FileChanges(next, files[1..]);
      if r.photo != next.photo {
        var k :| 0 <= k < |files[1..]| && files[1..][k].Some? &&
                 files[1..][k].value.size <= MAX_PHOTO_BYTES && r.photo == files[1..][k].value.dataUrl;
        assert files[k + 1] == files[1..][k];
      } else if next.photo != form.photo {
        assert files[0].Some? && files[0].value.size <= MAX_PHOTO_BYTES;
      }
    }
  }
}

=== FILE: calendar.dfy ===
/** The festival calendar: month navigation, the fixed holiday table, the
    per-month holiday list, the day-cell lookup and the founder's-birthday
    wish box. */
module Calendar {
  import opened Wrappers
  import Text

  /** A month index as `Date.getMonth` numbers them: January is 0. */
  type MonthIndex = m: int | 0 <= m < 12

  /** A holiday entry. The Hindi name, summary, emoji and colour are display
      only and not modelled. */
  datatype Holiday = Holiday(
    date: int, monthIdx: int, name: string, isFounderBirthday: bool, instagram: Option<string>)

  function Plain(date: int, monthIdx: int, name: string): Holiday {
    Holiday(date, monthIdx, name, false, None)
  }

  const FOUNDER_BIRTHDAY := Holiday(25, 1, "Virat Goyal's Birthday", true, Some("virat.goyal25"))

  const HOLIDAYS: seq<Holiday> := [
    Plain(1, 0, "New Year Day"),
    Plain(14, 0, "Makar Sankranti"),
    Plain(26, 0, "Republic Day"),
    Plain(7, 1, "Rose Day"),
    Plain(8, 1, "Propose Day"),
    Plain(9, 1, "Chocolate Day"),
    Plain(10, 1, "Teddy Day"),
    Plain(11, 1, "Promise Day"),
    Plain(12, 1, "Hug Day"),
    Plain(13, 1, "Kiss Day"),
    Plain(14, 1, "Valentine's Day"),
    FOUNDER_BIRTHDAY,
    Plain(4, 2, "Holi Festival"),
    Plain(15, 7, "Independence Day"),
    Plain(28, 7, "Raksha Bandhan"),
    Plain(2, 9, "Gandhi Jayanti"),
    Plain(20, 9, "Dussehra"),
    Plain(8, 10, "Diwali"),
    Plain(16, 10, "Chhath Puja"),
    Plain(25, 11, "Christmas")
  ]

  /** A month's banner: its English name and its gradient. */
  datatype MonthStyle = MonthStyle(en: string, wrapperClass: string)

  const MONTH_STYLES: seq<MonthStyle> := [
    MonthStyle("January", "from-blue-500 to-indigo-600"),
    MonthStyle("February", "from-rose-500 to-red-600"),
    MonthStyle("March", "from-emerald-400 to-teal-600"),
    MonthStyle("April", "from-amber-400 to-orange-500"),
    MonthStyle("May", "from-indigo-400 to-purple-600"),
    MonthStyle("June", "from-teal-400 to-emerald-600"),
    MonthStyle("July", "from-cyan-400 to-blue-600"),
    MonthStyle("August", "from-orange-400 to-red-600"),
    MonthStyle("September", "from-purple-400 to-fuchsia-600"),
    MonthStyle("October", "from-fuchsia-400 to-pink-600"),
    MonthStyle("November", "from-slate-500 to-slate-700"),
    MonthStyle("December", "from-sky-400 to-blue-600")
  ]

  // ---------------------------------------------------------------------------
  // Month navigation.

  /** The chevron "next": December wraps to January. */
  function NextMonth(m: MonthIndex): (r: MonthIndex)
    ensures r == (m + 1) % 12
  {
    if m == 11 then 0 else m + 1
  }

  /** The chevron "previous": January wraps to December. */
  function PrevMonth(m: MonthIndex): (r: MonthIndex)
    ensures r == (m + 11) % 12
  {
    if m == 0 then 11 else m - 1
  }

  /** The banner of the shown month; every reachable index is in the table. */
  function ActiveStyle(m: MonthIndex): (s: MonthStyle)
    ensures s in MONTH_STYLES
  {
    MONTH_STYLES[m]
  }

  lemma NextPrevInverse(m: MonthIndex)
    ensures PrevMonth(NextMonth(m)) == m
    ensures NextMonth(PrevMonth(m)) == m
  {}

  /** `k` presses of "next". */
  function NextTimes(m: MonthIndex, k: nat): MonthIndex {
    if k == 0 then m else NextMonth(NextTimes(m, k - 1))
  }

  lemma {:induction false} NextTimesIsMod(m: MonthIndex, k: nat)
    ensures NextTimes(m, k) == (m + k) % 12
  {
    if k > 0 {
      NextTimesIsMod(m, k - 1);
      var a := m + k - 1;
      var q := a / 12;
      assert a == 12 * q + a % 12;
      if a % 12 == 11 {
        assert a + 1 == 12 * (q + 1);
      } else {
        assert a + 1 == 12 * q + (a % 12 + 1);
      }
    }
  }

  /** Twelve presses of "next" come back to the same month. */
  lemma TwelveNextsIdentity(m: MonthIndex)
    ensures NextTimes(m, 12) == m
  {
    NextTimesIsMod(m, 12);
  }

  // ---------------------------------------------------------------------------
  // The holiday table.

  /** Orders holidays by month, then by day. */
  function Key(h: Holiday): int {
    h.monthIdx * 32 + h.date
  }

  predicate ValidDay(h: Holiday) {
    1 <= h.date <= 31 && 0 <= h.monthIdx < 12
  }

  /** Each entry lies strictly after the one before it. */
  predicate Ascending(hs: seq<Holiday>) {
    forall k :: 0 < k < |hs| ==> Key(hs[k - 1]) < Key(hs[k])
  }

  lemma TableAscending()
    ensures Ascending(HOLIDAYS)
    ensures forall k :: 0 <= k < |HOLIDAYS| ==> ValidDay(HOLIDAYS[k])
  {}

  lemma {:induction false} AscendingStrict(hs: seq<Holiday>, i: nat, j: nat)
    requires Ascending(hs) && i < j < |hs|
    ensures Key(hs[i]) < Key(hs[j])
    decreases j - i
  {
    if i + 1 < j {
      AscendingStrict(hs, i + 1, j);
    }
  }

  /** No two holidays share a day: so the day-cell lookup finds at most one
      holiday and the highlight list's `date` key is unique within a month. */
  lemma KeysUnique(i: nat, j: nat)
    requires i < j < |HOLIDAYS|
    ensures (HOLIDAYS[i].date, HOLIDAYS[i].monthIdx) != (HOLIDAYS[j].date, HOLIDAYS[j].monthIdx)
  {
    TableAscending();
    AscendingStrict(HOLIDAYS, i, j);
  }

  /** Exactly one entry is the founder's birthday, on 25 February. */
  lemma OneFounder()
    ensures forall k :: 0 <= k < |HOLIDAYS| ==> (HOLIDAYS[k].isFounderBirthday <==> k == 11)
    ensures HOLIDAYS[11].date == 25 && HOLIDAYS[11].monthIdx == 1
  {}

  /** `HOLIDAYS.find(h => pred(h))`, as the first match. */
  function FindHoliday(hs: seq<Holiday>, day: int, month: int): (r: Option<Holiday>)
    ensures r.Some? ==> r.value in hs && r.value.date == day && r.value.monthIdx == month
    ensures r.None? <==> forall k :: 0 <= k < |hs| ==> !(hs[k].date == day && hs[k].monthIdx == month)
  {
    if hs == [] then None
    else if hs[0].date == day && hs[0].monthIdx == month then Some(hs[0])
    else FindHoliday(hs[1..], day, month)
  }

  /** The holiday shown in a day cell of the month grid. */
  function DayHoliday(day: int, month: MonthIndex): (r: Option<Holiday>)
    ensures r.Some? ==> r.value.date == day && r.value.monthIdx == month
  {
    FindHoliday(HOLIDAYS, day, month)
  }

  /** Whatever holiday falls on a day is the one its cell shows. */
  lemma DayHolidayExact(k: nat)
    requires k < |HOLIDAYS|
    ensures 0 <= HOLIDAYS[k].monthIdx < 12
    ensures DayHoliday(HOLIDAYS[k].date, HOLIDAYS[k].monthIdx) == Some(HOLIDAYS[k])
  {
    TableAscending();
    var h := HOLIDAYS[k];
    var r := DayHoliday(h.date, h.monthIdx);
    assert r.Some?;
    var i :| 0 <= i < |HOLIDAYS| && HOLIDAYS[i] == r.value;
    if i < k {
      KeysUnique(i, k);
    } else if k < i {
      KeysUnique(k, i);
    }
  }

  /** `HOLIDAYS.find(h => h.isFounderBirthday)`. */
  function FindFounder(hs: seq<Holiday>): (r: Option<Holiday>)
    ensures r.Some? ==> r.value in hs && r.value.isFounderBirthday
    ensures r.None? <==> forall k :: 0 <= k < |hs| ==> !hs[k].isFounderBirthday
  {
    if hs == [] then None
    else if hs[0].isFounderBirthday then Some(hs[0])
    else FindFounder(hs[1..])
  }

  /** The founder lookup in the wish handler always succeeds. */
  lemma FounderFound()
    ensures FindFounder(HOLIDAYS) == Some(FOUNDER_BIRTHDAY)
  {
    OneFounder();
    assert HOLIDAYS[11] == FOUNDER_BIRTHDAY;
  }

  // ---------------------------------------------------------------------------
  // The month's holiday list.

  /** `hs.filter(h => h.monthIdx === month)`. */
  function InMonth(hs: seq<Holiday>, month: int): (r: seq<Holiday>)
    ensures |r| <= |hs|
    ensures forall h :: h in r <==> h in hs && h.monthIdx == month
  {
    if hs == [] then []
    else (if hs[0].monthIdx == month then [hs[0]] else []) + InMonth(hs[1..], month)
  }

  predicate SortedByDate(hs: seq<Holiday>) {
    forall k :: 0 < k < |hs| ==> hs[k - 1].date <= hs[k].date
  }

  /** Places `h` before the first entry not earlier than it. */
  function Insert(h: Holiday, hs: seq<Holiday>): (r: seq<Holiday>)
    ensures multiset(r) == multiset{h} + multiset(hs)
    ensures SortedByDate(hs) ==> SortedByDate(r)
    ensures r != [] && (r[0] == h || (hs != [] && r[0] == hs[0]))
  {
    if hs == [] || h.date <= hs[0].date then [h] + hs
    else
      assert hs == [hs[0]] + hs[1..];
      var rest := Insert(h, hs[1..]);
      assert SortedByDate(hs) ==> SortedByDate(hs[1..]) && hs[0].date <= rest[0].date;
      [hs[0]] + rest
  }

  /** `sort((a, b) => a.date - b.date)`: an insertion sort by date, stable like
      the engine's sort, so entries on the same date keep their order. */
  function SortByDate(hs: seq<Holiday>): (r: seq<Holiday>)
    ensures multiset(r) == multiset(hs)
    ensures SortedByDate(r)
  {
    if hs == [] then []
    else
      assert hs == [hs[0]] + hs[1..];
      Insert(hs[0], SortByDate(hs[1..]))
  }

  /** An already sorted list comes back as it was. */
  lemma {:induction false} SortSorted(hs: seq<Holiday>)
    requires SortedByDate(hs)
    ensures SortByDate(hs) == hs
  {
    if hs != [] {
      SortSorted(hs[1..]);
      assert hs == [hs[0]] + hs[1..];
    }
  }

  /** The list of the shown month's holidays. */
  function MonthHolidays(month: MonthIndex): (r: seq<Holiday>)
    ensures SortedByDate(r)
    ensures multiset(r) == multiset(InMonth(HOLIDAYS, month))
  {
    SortByDate(InMonth(HOLIDAYS, month))
  }

  /** A filter keeps an ascending list ascending. */
  lemma {:induction false} InMonthAscending(hs: seq<Holiday>, month: int)
    requires Ascending(hs)
    ensures Ascending(InMonth(hs, month))
  {
    if hs != [] {
      var rest := hs[1..];
      assert Ascending(rest) by {
        forall k | 0 < k < |rest| ensures Key(rest[k - 1]) < Key(rest[k]) {
          assert rest[k - 1] == hs[k] && rest[k] == hs[k + 1];
        }
      }
      var tail := InMonth(rest, month);
      InMonthAscending(rest, month);
      if hs[0].monthIdx == month && tail != [] {
        assert tail[0] in rest;
        var j :| 0 <= j < |rest| && rest[j] == tail[0];
        AscendingStrict(hs, 0, j + 1);
        AscendingCons(hs[0], tail);
      }
    }
  }

  lemma AscendingCons(h: Holiday, tail: seq<Holiday>)
    requires Ascending(tail) && tail != [] && Key(h) < Key(tail[0])
    ensures Ascending([h] + tail)
  {
    var s := [h] + tail;
    forall k | 0 < k < |s| ensures Key(s[k - 1]) < Key(s[k]) {
      if k > 1 {
        assert s[k - 1] == tail[k - 2] && s[k] == tail[k - 1];
      }
    }
  }

  /** Within one month, ascending keys are ascending dates. */
  lemma SameMonthSorted(hs: seq<Holiday>, month: int)
    requires Ascending(hs) && forall k :: 0 <= k < |hs| ==> hs[k].monthIdx == month
    ensures SortedByDate(hs)
  {}

  /** The shown list is exactly the table's entries for the month, in table
      order, which is date order. */
  lemma MonthHolidaysExact(month: MonthIndex)
    ensures MonthHolidays(month) == InMonth(HOLIDAYS, month)
    ensures forall h :: h in MonthHolidays(month) <==> h in HOLIDAYS && h.monthIdx == month
  {
    TableAscending();
    var f := InMonth(HOLIDAYS, month);
    InMonthAscending(HOLIDAYS, month);
    assert forall k :: 0 <= k < |f| ==> f[k] in f;
    SameMonthSorted(f, month);
    SortSorted(f);
  }

  // ---------------------------------------------------------------------------
  // The calendar's own state.

  datatype CalendarState = CalendarState(
    monthIdx: MonthIndex, selected: Option<Holiday>, isYearView: bool,
    wishMessage: string, isWishSent: bool)

  datatype Direction = Next | Prev

  /** `navigateMonth`: moves one month and clears the selection and the wish box. */
  function NavigateMonth(st: CalendarState, dir: Direction): (r: CalendarState)
    ensures r.monthIdx == if dir == Next then (st.monthIdx + 1) % 12 else (st.monthIdx + 11) % 12
    ensures r.selected == None && !r.isWishSent && r.wishMessage == ""
    ensures r.isYearView == st.isYearView
  {
    var m := if dir == Next then NextMonth(st.monthIdx) else PrevMonth(st.monthIdx);
    st.(monthIdx := m, selected := None, isWishSent := false, wishMessage := "")
  }

  /** Going forward then back returns to the same month. */
  lemma NavigateBack(st: CalendarState)
    ensures NavigateMonth(NavigateMonth(st, Next), Prev).monthIdx == st.monthIdx
  {
    NextPrevInverse(st.monthIdx);
  }

  /** `selectMonthFromYear`: shows the picked month and leaves the year grid. */
  function SelectMonthFromYear(st: CalendarState, idx: MonthIndex): (r: CalendarState)
    ensures r.monthIdx == idx && !r.isYearView
    ensures r.selected == st.selected && r.wishMessage == st.wishMessage && r.isWishSent == st.isWishSent
  {
    st.(monthIdx := idx, isYearView := false)
  }

  /** `handleHolidaySelect`: selects the holiday and re-opens its wish box. */
  function SelectHoliday(st: CalendarState, h: Holiday): (r: CalendarState)
    ensures r.selected == Some(h) && !r.isWishSent
    ensures r.monthIdx == st.monthIdx && r.isYearView == st.isYearView && r.wishMessage == st.wishMessage
  {
    st.(selected := Some(h), isWishSent := false)
  }

  /** `handleSendFounderWish`: a blank message is ignored; otherwise the wish
      counts as sent and the box is cleared. */
  function SendFounderWish(st: CalendarState): (r: CalendarState)
    ensures Text.IsBlank(st.wishMessage) ==> r == st
    ensures !Text.IsBlank(st.wishMessage) ==>
      r.isWishSent && r.wishMessage == "" &&
      r.monthIdx == st.monthIdx && r.selected == st.selected && r.isYearView == st.isYearView
  {
    if Text.Trim(st.wishMessage) == "" then st
    else st.(isWishSent := true, wishMessage := "")
  }

  /** A wish with a visible character is sent even when surrounded by spaces. */
  lemma PaddedWishSent(st: CalendarState, k: nat)
    requires k < |st.wishMessage| && !Text.IsSpace(st.wishMessage[k])
    ensures SendFounderWish(st).isWishSent
  {}

  // ---------------------------------------------------------------------------
  // The calendar's controls, and what every sequence of them keeps.

  /** The calendar as it opens: the month the clock gives, the month view,
      nothing selected and an empty wish box. */
  function Opened(month: MonthIndex): (r: CalendarState)
    ensures r.monthIdx == month && r.selected.None? && !r.isYearView && !r.isWishSent
  {
    CalendarState(month, None, false, "", false)
  }

  datatype CalendarEvent =
    | Navigate(dir: Direction)       // the chevrons
    | OpenYearView                   // "Full Year"
    | BackToDetail                   // "Back to Detail"
    | PickMonth(idx: MonthIndex)     // a month tile of the year grid
    | PickHoliday(h: Holiday)        // a day cell, the month's list, or a year-grid chip
    | CloseDetail                    // the detail card's close button
    | TypeWish(msg: string)          // the founder's wish input
    | SendWish                       // "Send Birthday Wish"

  /** The wish input and its button: the founder's card is open and no wish
      has been sent from it yet. */
  predicate WishBoxShown(st: CalendarState) {
    !st.isYearView && st.selected.Some? && st.selected.value.isFounderBirthday && !st.isWishSent
  }

  /** Which controls the calendar renders. The chevrons, "Full Year", the day
      cells, the month's list and the detail card belong to the month view;
      "Back to Detail", the month tiles and the holiday chips inside them to
      the year grid. In the month view a holiday is picked from the shown
      month's cells or list; in the year grid any holiday's chip picks it. */
  predicate CalendarOffered(st: CalendarState, e: CalendarEvent) {
    match e
    case Navigate(_) => !st.isYearView
    case OpenYearView => !st.isYearView
    case BackToDetail => st.isYearView
    case PickMonth(_) => st.isYearView
    case PickHoliday(h) => h in HOLIDAYS && (st.isYearView || h.monthIdx == st.monthIdx)
    case CloseDetail => !st.isYearView && st.selected.Some?
    case TypeWish(_) => WishBoxShown(st)
    case SendWish => WishBoxShown(st)
  }

  /** What the calendar keeps between actions: a sent wish leaves the box
      empty, and the selection is always an entry of the table. */
  predicate CalendarInv(st: CalendarState) {
    && (st.isWishSent ==> st.wishMessage == "")
    && (st.selected.Some? ==> st.selected.value in HOLIDAYS)
  }

  /** One action on the calendar. */
  function CalendarStep(st: CalendarState, e: CalendarEvent): (r: CalendarState)
    ensures !CalendarOffered(st, e) ==> r == st
    ensures CalendarInv(st) ==> CalendarInv(r)
    ensures !st.isWishSent && r.isWishSent ==>
      e == SendWish && st.selected.Some? && st.selected.value.isFounderBirthday
  {
    if !CalendarOffered(st, e) then st
    else match e
      case Navigate(dir) => NavigateMonth(st, dir)
      case OpenYearView => st.(isYearView := true)
      case BackToDetail => st.(isYearView := false)
      case PickMonth(idx) => SelectMonthFromYear(st, idx)
      case PickHoliday(h) => SelectHoliday(st, h)
      case CloseDetail => st.(selected := None)
      case TypeWish(msg) => st.(wishMessage := msg)
      case SendWish => SendFounderWish(st)
  }

  function RunCalendar(st: CalendarState, es: seq<CalendarEvent>): CalendarState
    decreases |es|
  {
    if es == [] then st else RunCalendar(CalendarStep(st, es[0]), es[1..])
  }

  /** Every state reached from an opened calendar keeps the invariant. */
  lemma {:induction false} RunCalendarKeepsInv(st: CalendarState, es: seq<CalendarEvent>)
    requires CalendarInv(st)
    ensures CalendarInv(RunCalendar(st, es))
    decreases |es|
  {
    if es != [] {
      RunCalendarKeepsInv(CalendarStep(st, es[0]), es[1..]);
    }
  }

  /** In particular, from any opened calendar, a shown "sent" note always
      comes with an empty wish box. */
  lemma OpenedKeepsInv(month: MonthIndex, es: seq<CalendarEvent>)
    ensures var r := RunCalendar(Opened(month), es);
      (r.isWishSent ==> r.wishMessage == "") && (r.selected.Some? ==> r.selected.value in HOLIDAYS)
  {
    RunCalendarKeepsInv(Opened(month), es);
  }

  /** Picking a tile in the year grid leaves the month view's selection as it
      was, even when it belongs to another month. */
  lemma YearPickKeepsSelection(st: CalendarState, idx: MonthIndex)
    requires st.isYearView
    ensures CalendarStep(st, PickMonth(idx)) == st.(monthIdx := idx, isYearView := false)
  {}

  /** A holiday chip in the year grid selects its holiday from any month and
      re-opens its wish box, staying on the year grid. */
  lemma YearChipSelects(st: CalendarState, i: nat)
    requires st.isYearView && i < |HOLIDAYS|
    ensures CalendarStep(st, PickHoliday(HOLIDAYS[i])) ==
      st.(selected := Some(HOLIDAYS[i]), isWishSent := false)
  {}
}

=== FILE: cart.dfy ===
/** The shopping cart: an ordered sequence of lines keyed by product id, the
    four ways the storefront changes it (add, remove, stepper delta, delete
    line), the item count shown on the header badge and the price total shown
    in the cart sidebar. */
module Cart {
  import opened Wrappers
  import opened Catalogue
  import opened Seqs

  /** A cart line: the product as it was first added, with a quantity. */
  datatype CartLine = CartLine(item: Product, quantity: int)

  type Cart = seq<CartLine>

  /** The ids that have a line in the cart. */
  function Ids(cart: Cart): set<string> {
    if cart == [] then {} else {cart[0].item.id} + Ids(cart[1..])
  }

  /** No id has two lines. */
  predicate UniqueIds(cart: Cart) {
    cart == [] || (cart[0].item.id !in Ids(cart[1..]) && UniqueIds(cart[1..]))
  }

  predicate Positive(cart: Cart) {
    forall k :: 0 <= k < |cart| ==> cart[k].quantity >= 1
  }

  /** The cart invariant: one line per id, every quantity at least 1. */
  predicate Valid(cart: Cart) {
    UniqueIds(cart) && Positive(cart)
  }

  /** Total quantity held under `id` (over all lines with that id). */
  function QuantityOf(cart: Cart, id: string): (r: int)
    ensures id !in Ids(cart) ==> r == 0
  {
    if cart == [] then 0
    else (if cart[0].item.id == id then cart[0].quantity else 0) + QuantityOf(cart[1..], id)
  }

  /** `totalCartItems`: the quantities summed left to right, as `reduce` does. */
  function TotalItems(cart: Cart): int {
    if cart == [] then 0 else TotalItems(cart[..|cart| - 1]) + cart[|cart| - 1].quantity
  }

  /** The price of one line. */
  function Subtotal(l: CartLine): int {
    l.item.price * l.quantity
  }

  /** `totalPrice`: the line subtotals summed left to right, as `reduce` does. */
  function TotalPrice(cart: Cart): int {
    if cart == [] then 0 else TotalPrice(cart[..|cart| - 1]) + Subtotal(cart[|cart| - 1])
  }

  // ---------------------------------------------------------------------------
  // The list primitives the handlers are written with.

  /** `cart.find(item => item.id === id)`, as the index of the first match. */
  function Find(cart: Cart, id: string): (r: Option<nat>)
    ensures r.Some? ==> r.value < |cart| && cart[r.value].item.id == id
    ensures r.None? <==> id !in Ids(cart)
  {
    if cart == [] then None
    else if cart[0].item.id == id then Some(0)
    else match Find(cart[1..], id)
      case None => None
      case Some(k) => Some(k + 1)
  }

  /** `cart.map(item => item.id === id ? { ...item, quantity: f(item.quantity) } : item)`. */
  function MapQuantity(cart: Cart, id: string, delta: int, floored: bool): (r: Cart)
    ensures |r| == |cart| && Ids(r) == Ids(cart)
    ensures forall k :: 0 <= k < |r| ==> r[k].item == cart[k].item
    ensures forall k :: 0 <= k < |r| ==>
      r[k].quantity == if cart[k].item.id == id then Adjust(cart[k].quantity, delta, floored) else cart[k].quantity
  {
    if cart == [] then []
    else
      var l := cart[0];
      var l' := if l.item.id == id then l.(quantity := Adjust(l.quantity, delta, floored)) else l;
      [l'] + MapQuantity(cart[1..], id, delta, floored)
  }

  /** `cart.filter(item => item.id !== id)`: the lines of other ids, unchanged
      and in order. */
  function Without(cart: Cart, id: string): (r: Cart)
    ensures |r| <= |cart| && Ids(r) == Ids(cart) - {id}
    ensures forall l :: l in r <==> l in cart && l.item.id != id
    ensures IsSubsequence(r, cart)
  {
    if cart == [] then []
    else
      var rest := Without(cart[1..], id);
      if cart[0].item.id == id then rest
      else
        assert ([cart[0]] + rest)[1..] == rest;
        [cart[0]] + rest
  }

  /** `cart.filter(item => item.quantity > 0)`: the lines with a positive
      quantity, unchanged and in order. */
  function KeepPositive(cart: Cart): (r: Cart)
    ensures Positive(r) && Ids(r) <= Ids(cart)
    ensures forall l :: l in r <==> l in cart && l.quantity > 0
    ensures IsSubsequence(r, cart)
    ensures Positive(cart) ==> r == cart
  {
    if cart == [] then []
    else
      var rest := KeepPositive(cart[1..]);
      if cart[0].quantity > 0 then
        assert ([cart[0]] + rest)[1..] == rest;
        [cart[0]] + rest
      else rest
  }

  /** Every quantity is at least 0 (what the stepper's `Math.max(0, …)` leaves). */
  predicate NonNegative(cart: Cart) {
    forall k :: 0 <= k < |cart| ==> cart[k].quantity >= 0
  }

  /** A line's new quantity: moved by `delta`, and when `floored` (the
      stepper's `Math.max(0, …)`) not below 0. */
  function Adjust(q: int, delta: int, floored: bool): int {
    if floored then Max0(q + delta) else q + delta
  }

  /** `Math.max(0, q)`. */
  function Max0(q: int): (r: int)
    ensures r >= 0 && r >= q && (r == q || r == 0)
  {
    if q > 0 then q else 0
  }

  // ---------------------------------------------------------------------------
  // Facts about the primitives.

  lemma {:induction false} IdAt(cart: Cart, k: nat)
    requires k < |cart|
    ensures cart[k].item.id in Ids(cart)
  {
    if k > 0 {
      IdAt(cart[1..], k - 1);
    }
  }

  lemma {:induction false} QuantityAt(cart: Cart, id: string, k: nat)
    requires UniqueIds(cart) && k < |cart| && cart[k].item.id == id
    ensures QuantityOf(cart, id) == cart[k].quantity
  {
    if k > 0 {
      IdAt(cart[1..], k - 1);
      QuantityAt(cart[1..], id, k - 1);
    } else {
      assert id !in Ids(cart[1..]);
    }
  }

  lemma {:induction false} PositiveQuantity(cart: Cart, id: string)
    requires Valid(cart)
    ensures id in Ids(cart) <==> QuantityOf(cart, id) >= 1
  {
    if cart != [] {
      PositiveQuantity(cart[1..], id);
      assert cart[0].quantity >= 1;
    }
  }

  lemma {:induction false} MapQuantityKeepsUnique(cart: Cart, id: string, delta: int, floored: bool)
    ensures UniqueIds(MapQuantity(cart, id, delta, floored)) == UniqueIds(cart)
  {
    if cart != [] {
      MapQuantityKeepsUnique(cart[1..], id, delta, floored);
      assert MapQuantity(cart, id, delta, floored)[1..] == MapQuantity(cart[1..], id, delta, floored);
    }
  }

  lemma {:induction false} MapQuantityOf(cart: Cart, id: string, delta: int, floored: bool)
    requires UniqueIds(cart) && id in Ids(cart)
    ensures QuantityOf(MapQuantity(cart, id, delta, floored), id) == Adjust(QuantityOf(cart, id), delta, floored)
  {
    var r := MapQuantity(cart, id, delta, floored);
    assert r[1..] == MapQuantity(cart[1..], id, delta, floored);
    if cart[0].item.id != id {
      MapQuantityOf(cart[1..], id, delta, floored);
    }
  }

  lemma {:induction false} MapQuantityWithout(cart: Cart, id: string, delta: int, floored: bool)
    ensures Without(MapQuantity(cart, id, delta, floored), id) == Without(cart, id)
  {
    if cart != [] {
      MapQuantityWithout(cart[1..], id, delta, floored);
      assert MapQuantity(cart, id, delta, floored)[1..] == MapQuantity(cart[1..], id, delta, floored);
    }
  }

  lemma {:induction false} MapQuantityAbsent(cart: Cart, id: string, delta: int, floored: bool)
    requires id !in Ids(cart)
    ensures MapQuantity(cart, id, delta, floored) == cart
  {
    if cart != [] {
      MapQuantityAbsent(cart[1..], id, delta, floored);
    }
  }

  lemma {:induction false} WithoutKeepsUnique(cart: Cart, id: string)
    requires UniqueIds(cart)
    ensures UniqueIds(Without(cart, id))
  {
    if cart != [] {
      WithoutKeepsUnique(cart[1..], id);
      var rest := Without(cart[1..], id);
      assert ([cart[0]] + rest)[1..] == rest;
    }
  }

  lemma {:induction false} WithoutKeepsPositive(cart: Cart, id: string)
    requires Positive(cart)
    ensures Positive(Without(cart, id))
  {
    if cart != [] {
      WithoutKeepsPositive(cart[1..], id);
      assert Positive(cart[1..]) by {
        forall k | 0 <= k < |cart| - 1 ensures cart[1..][k].quantity >= 1 {
          assert cart[1..][k] == cart[k + 1];
        }
      }
    }
  }

  lemma {:induction false} WithoutQuantity(cart: Cart, id: string, x: string)
    requires x != id
    ensures QuantityOf(Without(cart, id), x) == QuantityOf(cart, x)
  {
    if cart != [] {
      WithoutQuantity(cart[1..], id, x);
      var rest := Without(cart[1..], id);
      assert ([cart[0]] + rest)[1..] == rest;
    }
  }

  lemma {:induction false} WithoutTwice(cart: Cart, id: string)
    ensures Without(Without(cart, id), id) == Without(cart, id)
  {
    if cart != [] {
      WithoutTwice(cart[1..], id);
      var rest := Without(cart[1..], id);
      assert ([cart[0]] + rest)[1..] == rest;
    }
  }

  lemma {:induction false} KeepPositiveKeepsUnique(cart: Cart)
    requires UniqueIds(cart)
    ensures UniqueIds(KeepPositive(cart))
  {
    if cart != [] {
      KeepPositiveKeepsUnique(cart[1..]);
      var rest := KeepPositive(cart[1..]);
      assert ([cart[0]] + rest)[1..] == rest;
    }
  }

  lemma {:induction false} KeepPositiveQuantity(cart: Cart, x: string)
    requires NonNegative(cart)
    ensures QuantityOf(KeepPositive(cart), x) == QuantityOf(cart, x)
  {
    if cart != [] {
      assert NonNegative(cart[1..]) by {
        forall k | 0 <= k < |cart| - 1 ensures cart[1..][k].quantity >= 0 {
          assert cart[1..][k] == cart[k + 1];
        }
      }
      KeepPositiveQuantity(cart[1..], x);
      var rest := KeepPositive(cart[1..]);
      assert ([cart[0]] + rest)[1..] == rest;
    }
  }

  lemma {:induction false} KeepPositiveWithout(cart: Cart, id: string)
    ensures Without(KeepPositive(cart), id) == KeepPositive(Without(cart, id))
  {
    if cart != [] {
      KeepPositiveWithout(cart[1..], id);
      var kp := KeepPositive(cart[1..]);
      var wo := Without(cart[1..], id);
      assert ([cart[0]] + kp)[1..] == kp;
      assert ([cart[0]] + wo)[1..] == wo;
    }
  }

  /** Appending a line adds its quantity under its id and nothing else. */
  lemma {:induction false} AppendLine(cart: Cart, l: CartLine)
    ensures Ids(cart + [l]) == Ids(cart) + {l.item.id}
    ensures QuantityOf(cart + [l], l.item.id) == QuantityOf(cart, l.item.id) + l.quantity
    ensures Without(cart + [l], l.item.id) == Without(cart, l.item.id)
    ensures UniqueIds(cart) && l.item.id !in Ids(cart) ==> UniqueIds(cart + [l])
  {
    if cart != [] {
      AppendLine(cart[1..], l);
      assert (cart + [l])[1..] == cart[1..] + [l];
    } else {
      assert [l][1..] == [];
    }
  }

  lemma {:induction false} TotalItemsAppend(a: Cart, b: Cart)
    ensures TotalItems(a + b) == TotalItems(a) + TotalItems(b)
  {
    if b != [] {
      TotalItemsAppend(a, b[..|b| - 1]);
      assert (a + b)[..|a + b| - 1] == a + b[..|b| - 1];
    } else {
      assert a + b == a;
    }
  }

  lemma {:induction false} TotalPriceAppend(a: Cart, b: Cart)
    ensures TotalPrice(a + b) == TotalPrice(a) + TotalPrice(b)
  {
    if b != [] {
      TotalPriceAppend(a, b[..|b| - 1]);
      assert (a + b)[..|a + b| - 1] == a + b[..|b| - 1];
    } else {
      assert a + b == a;
    }
  }

  /** The item count splits into the lines of one id and all the others. */
  lemma {:induction false} TotalItemsSplit(cart: Cart, id: string)
    ensures TotalItems(cart) == QuantityOf(cart, id) + TotalItems(Without(cart, id))
  {
    if cart != [] {
      TotalItemsSplit(cart[1..], id);
      TotalItemsAppend([cart[0]], cart[1..]);
      assert [cart[0]] + cart[1..] == cart;
      var rest := Without(cart[1..], id);
      TotalItemsAppend([cart[0]], rest);
    }
  }

  lemma WithoutQuantityAll(cart: Cart, id: string)
    ensures forall x :: x != id ==> QuantityOf(Without(cart, id), x) == QuantityOf(cart, x)
  {
    forall x | x != id
      ensures QuantityOf(Without(cart, id), x) == QuantityOf(cart, x)
    {
      WithoutQuantity(cart, id, x);
    }
  }

  /** The stepper's floor at 0 never bites on a line that stays at 0 or above,
      so the floored and the plain map agree there. */
  lemma FloorUnused(cart: Cart, id: string, delta: int)
    requires forall k :: 0 <= k < |cart| && cart[k].item.id == id ==> cart[k].quantity + delta >= 0
    ensures MapQuantity(cart, id, delta, true) == MapQuantity(cart, id, delta, false)
  {
    var a, b := MapQuantity(cart, id, delta, true), MapQuantity(cart, id, delta, false);
    assert forall k :: 0 <= k < |a| ==> a[k] == b[k];
  }

  /** Mapping the lines of `id`, all of quantity 1, to zero or less and then
      dropping the non-positive lines removes exactly the lines of `id`. */
  lemma {:induction false} DropSingles(cart: Cart, id: string, delta: int, floored: bool)
    requires Positive(cart) && Adjust(1, delta, floored) <= 0
    requires forall k :: 0 <= k < |cart| && cart[k].item.id == id ==> cart[k].quantity == 1
    ensures KeepPositive(MapQuantity(cart, id, delta, floored)) == Without(cart, id)
  {
    if cart != [] {
      var m := MapQuantity(cart, id, delta, floored);
      assert m[1..] == MapQuantity(cart[1..], id, delta, floored);
      assert forall k :: 0 <= k < |cart| - 1 ==> cart[1..][k] == cart[k + 1];
      DropSingles(cart[1..], id, delta, floored);
      var rest := Without(cart[1..], id);
      assert ([cart[0]] + rest)[1..] == rest;
      var kp := KeepPositive(m[1..]);
      assert ([m[0]] + kp)[1..] == kp;
    }
  }

  // ---------------------------------------------------------------------------
  // The handlers.

  /** `addToCart`: one more of an existing line, which keeps its place, or a
      new line of one at the end. */
  function AddToCart(cart: Cart, p: Product): (r: Cart)
    ensures Valid(cart) ==> Valid(r)
    ensures Ids(r) == Ids(cart) + {p.id}
    ensures Without(r, p.id) == Without(cart, p.id)
    ensures p.id !in Ids(cart) ==> r == cart + [CartLine(p, 1)]
    ensures p.id in Ids(cart) ==> |r| == |cart|
    ensures p.id in Ids(cart) ==> forall k :: 0 <= k < |r| ==> r[k].item == cart[k].item
    ensures UniqueIds(cart) ==> QuantityOf(r, p.id) == QuantityOf(cart, p.id) + 1
  {
    if Find(cart, p.id).Some? then
      var r := MapQuantity(cart, p.id, 1, false);
      MapQuantityKeepsUnique(cart, p.id, 1, false);
      MapQuantityWithout(cart, p.id, 1, false);
      if UniqueIds(cart) then MapQuantityOf(cart, p.id, 1, false); r else r
    else
      AppendLine(cart, CartLine(p, 1));
      cart + [CartLine(p, 1)]
  }

  /** `removeFromCart`: a line of one disappears, any other line loses one
      and keeps its place; an id with no line leaves the cart as it is. */
  function RemoveFromCart(cart: Cart, p: Product): (r: Cart)
    ensures Valid(cart) ==> Valid(r)
    ensures Without(r, p.id) == Without(cart, p.id)
    ensures p.id !in Ids(cart) ==> r == cart
    ensures Valid(cart) && p.id in Ids(cart) ==> QuantityOf(r, p.id) == QuantityOf(cart, p.id) - 1
    ensures Valid(cart) ==> (p.id in Ids(r) <==> QuantityOf(cart, p.id) > 1)
    ensures Valid(cart) && QuantityOf(cart, p.id) > 1 ==>
      |r| == |cart| && forall k :: 0 <= k < |r| ==> r[k].item == cart[k].item
  {
    var existing := Find(cart, p.id);
    if existing.Some? && cart[existing.value].quantity == 1 then
      var r := Without(cart, p.id);
      WithoutTwice(cart, p.id);
      if Valid(cart) then
        WithoutKeepsUnique(cart, p.id);
        WithoutKeepsPositive(cart, p.id);
        QuantityAt(cart, p.id, existing.value);
        r
      else r
    else
      var r := MapQuantity(cart, p.id, -1, false);
      MapQuantityKeepsUnique(cart, p.id, -1, false);
      MapQuantityWithout(cart, p.id, -1, false);
      if existing.None? then MapQuantityAbsent(cart, p.id, -1, false); r
      else if Valid(cart) then
        QuantityAt(cart, p.id, existing.value);
        MapQuantityOf(cart, p.id, -1, false);
        RemoveKeepsPositive(cart, p.id, existing.value);
        PositiveQuantity(r, p.id);
        r
      else r
  }

  lemma RemoveKeepsPositive(cart: Cart, id: string, e: nat)
    requires Valid(cart) && e < |cart| && cart[e].item.id == id && cart[e].quantity != 1
    ensures Positive(MapQuantity(cart, id, -1, false))
  {
    forall k | 0 <= k < |cart| && cart[k].item.id == id
      ensures cart[k].quantity >= 2
    {
      QuantityAt(cart, id, k);
      QuantityAt(cart, id, e);
    }
  }

  /** The sidebar stepper (`onUpdateQuantity`): every line of `id` moves by
      `delta`, floored at 0, and then every line at 0 leaves the cart. */
  function UpdateQuantity(cart: Cart, id: string, delta: int): (r: Cart)
    ensures Positive(r)
    ensures UniqueIds(cart) ==> UniqueIds(r)
  {
    var m := MapQuantity(cart, id, delta, true);
    MapQuantityKeepsUnique(cart, id, delta, true);
    if UniqueIds(cart) then KeepPositiveKeepsUnique(m); KeepPositive(m) else KeepPositive(m)
  }

  /** On a valid cart the stepper touches only the line of `id`: every other
      line stays as it was, in order, and the line of `id` takes its new
      quantity, or leaves when that reaches 0. */
  lemma UpdateQuantityEffect(cart: Cart, id: string, delta: int)
    requires Valid(cart)
    ensures var r := UpdateQuantity(cart, id, delta);
      Without(r, id) == Without(cart, id) &&
      QuantityOf(r, id) == (if id in Ids(cart) then Max0(QuantityOf(cart, id) + delta) else 0) &&
      (id in Ids(r) <==> id in Ids(cart) && QuantityOf(cart, id) + delta >= 1) &&
      (id in Ids(cart) && QuantityOf(cart, id) + delta >= 1 ==>
        |r| == |cart| && forall k :: 0 <= k < |r| ==> r[k].item == cart[k].item)
  {
    StepperFrame(cart, id, delta);
    if id in Ids(cart) && QuantityOf(cart, id) + delta >= 1 {
      StepperKeepsLine(cart, id, delta);
    }
  }

  /** The frame and quantity part of `UpdateQuantityEffect`. */
  lemma StepperFrame(cart: Cart, id: string, delta: int)
    requires Valid(cart)
    ensures var r := UpdateQuantity(cart, id, delta);
      Without(r, id) == Without(cart, id) &&
      QuantityOf(r, id) == (if id in Ids(cart) then Max0(QuantityOf(cart, id) + delta) else 0) &&
      (id in Ids(r) <==> id in Ids(cart) && QuantityOf(cart, id) + delta >= 1)
  {
    var m := MapQuantity(cart, id, delta, true);
    var r := UpdateQuantity(cart, id, delta);
    assert r == KeepPositive(m);
    MapQuantityWithout(cart, id, delta, true);
    KeepPositiveWithout(m, id);
    WithoutKeepsPositive(cart, id);
    assert NonNegative(m) by {
      forall k | 0 <= k < |m| ensures m[k].quantity >= 0 {
        assert cart[k].quantity >= 1;
      }
    }
    KeepPositiveQuantity(m, id);
    if id in Ids(cart) {
      MapQuantityOf(cart, id, delta, true);
    }
    PositiveQuantity(r, id);
  }

  /** When the line of `id` survives the stepper, no line is dropped: the
      result is the mapped cart itself, so every line keeps its place. */
  lemma StepperKeepsLine(cart: Cart, id: string, delta: int)
    requires Valid(cart) && id in Ids(cart) && QuantityOf(cart, id) + delta >= 1
    ensures UpdateQuantity(cart, id, delta) == MapQuantity(cart, id, delta, true)
  {
    var m := MapQuantity(cart, id, delta, true);
    forall k | 0 <= k < |m| ensures m[k].quantity >= 1 {
      if cart[k].item.id == id {
        QuantityAt(cart, id, k);
      }
    }
  }

  /** The trash button (`onRemove`): the line of `id` leaves, the others stay in order. */
  function DeleteLine(cart: Cart, id: string): (r: Cart)
    ensures Ids(r) == Ids(cart) - {id}
    ensures forall x :: x != id ==> QuantityOf(r, x) == QuantityOf(cart, x)
    ensures Without(r, id) == Without(cart, id)
    ensures Valid(cart) ==> Valid(r)
    ensures id !in Ids(cart) ==> r == cart
  {
    var r := Without(cart, id);
    WithoutQuantityAll(cart, id);
    WithoutTwice(cart, id);
    if id !in Ids(cart) then WithoutAbsent(cart, id); r
    else if Valid(cart) then WithoutKeepsUnique(cart, id); WithoutKeepsPositive(cart, id); r
    else r
  }

  lemma {:induction false} WithoutAbsent(cart: Cart, id: string)
    requires id !in Ids(cart)
    ensures Without(cart, id) == cart
  {
    if cart != [] {
      WithoutAbsent(cart[1..], id);
      assert [cart[0]] + cart[1..] == cart;
    }
  }

  // ---------------------------------------------------------------------------
  // The totals.

  /** What the sidebar footer shows: nothing for an empty cart, otherwise a
      subtotal, free delivery and a total. */
  datatype Bill = Bill(subtotal: int, deliveryFee: int, total: int)

  function Summary(cart: Cart): (r: Option<Bill>)
    ensures r.Some? <==> cart != []
    ensures r.Some? ==> r.value.deliveryFee == 0 && r.value.total == r.value.subtotal + r.value.deliveryFee
    ensures r.Some? ==> r.value.total == TotalPrice(cart)
  {
    if cart == [] then None else Some(Bill(TotalPrice(cart), 0, TotalPrice(cart)))
  }

  /** Adding raises the badge count by one. */
  lemma AddCountsOne(cart: Cart, p: Product)
    requires Valid(cart)
    ensures TotalItems(AddToCart(cart, p)) == TotalItems(cart) + 1
  {
    TotalItemsSplit(cart, p.id);
    TotalItemsSplit(AddToCart(cart, p), p.id);
  }

  /** Removing a present product lowers the badge count by one; an absent one
      changes nothing. */
  lemma RemoveCountsOne(cart: Cart, p: Product)
    requires Valid(cart)
    ensures TotalItems(RemoveFromCart(cart, p)) == TotalItems(cart) - (if p.id in Ids(cart) then 1 else 0)
  {
    TotalItemsSplit(cart, p.id);
    TotalItemsSplit(RemoveFromCart(cart, p), p.id);
    PositiveQuantity(RemoveFromCart(cart, p), p.id);
  }

  /** The stepper changes the badge count by exactly the change of the one line. */
  lemma UpdateCounts(cart: Cart, id: string, delta: int)
    requires Valid(cart)
    ensures TotalItems(UpdateQuantity(cart, id, delta)) ==
      TotalItems(cart) - QuantityOf(cart, id) + (if id in Ids(cart) then Max0(QuantityOf(cart, id) + delta) else 0)
  {
    TotalItemsSplit(cart, id);
    TotalItemsSplit(UpdateQuantity(cart, id, delta), id);
    UpdateQuantityEffect(cart, id, delta);
  }

  /** The trash button lowers the badge count by the whole line. */
  lemma DeleteCounts(cart: Cart, id: string)
    ensures TotalItems(DeleteLine(cart, id)) == TotalItems(cart) - QuantityOf(cart, id)
  {
    TotalItemsSplit(cart, id);
  }

  /** The stepper's plus is the product card's add for a product in the cart. */
  lemma PlusIsAdd(cart: Cart, p: Product)
    requires Valid(cart) && p.id in Ids(cart)
    ensures UpdateQuantity(cart, p.id, 1) == AddToCart(cart, p)
  {
    FloorUnused(cart, p.id, 1);
  }

  /** The stepper's minus is the product card's remove for a product in the cart. */
  lemma MinusIsRemove(cart: Cart, p: Product)
    requires Valid(cart) && p.id in Ids(cart)
    ensures UpdateQuantity(cart, p.id, -1) == RemoveFromCart(cart, p)
  {
    var e := Find(cart, p.id).value;
    forall k | 0 <= k < |cart| && cart[k].item.id == p.id
      ensures cart[k].quantity == cart[e].quantity
    {
      QuantityAt(cart, p.id, k);
      QuantityAt(cart, p.id, e);
    }
    if cart[e].quantity == 1 {
      DropSingles(cart, p.id, -1, true);
    } else {
      FloorUnused(cart, p.id, -1);
      RemoveKeepsPositive(cart, p.id, e);
    }
  }

  /** The price total is at least any one line's subtotal when no line is
      negative. */
  lemma {:induction false} LineWithinTotal(cart: Cart, k: nat)
    requires k < |cart|
    requires forall i :: 0 <= i < |cart| ==> Subtotal(cart[i]) >= 0
    ensures Subtotal(cart[k]) <= TotalPrice(cart)
  {
    var n := |cart| - 1;
    assert forall i :: 0 <= i < n ==> cart[..n][i] == cart[i];
    if k < n {
      LineWithinTotal(cart[..n], k);
    } else {
      NonNegativeTotal(cart[..n]);
    }
  }

  lemma {:induction false} NonNegativeTotal(cart: Cart)
    requires forall i :: 0 <= i < |cart| ==> Subtotal(cart[i]) >= 0
    ensures TotalPrice(cart) >= 0
  {
    if cart != [] {
      var n := |cart| - 1;
      assert forall i :: 0 <= i < n ==> cart[..n][i] == cart[i];
      NonNegativeTotal(cart[..n]);
    }
  }

  /** Adding a product to an empty cart twice, then removing it twice, shows
      totals of one, two, one and no unit prices, and ends with an empty cart. */
  lemma AddTwiceRemoveTwice(p: Product)
    ensures var c1 := AddToCart([], p);
            var c2 := AddToCart(c1, p);
            var c3 := RemoveFromCart(c2, p);
            var c4 := RemoveFromCart(c3, p);
            TotalPrice(c1) == p.price && TotalPrice(c2) == 2 * p.price &&
            TotalPrice(c3) == p.price && c4 == [] && Summary(c4).None?
  {
    var c1 := AddToCart([], p);
    assert c1 == [CartLine(p, 1)];
    var c2 := AddToCart(c1, p);
    assert c2 == [CartLine(p, 2)];
    var c3 := RemoveFromCart(c2, p);
    assert c3 == [CartLine(p, 1)];
    var c4 := RemoveFromCart(c3, p);
    assert c4 == [];
  }

  /** Full Cream Milk at 66: one in the cart totals 66, two total 132. */
  lemma MilkTotals(p: Product)
    requires p == PRODUCTS[0]
    ensures p.price == 66
    ensures TotalPrice(AddToCart([], p)) == 66
    ensures TotalPrice(AddToCart(AddToCart([], p), p)) == 132
  {
    AddTwiceRemoveTwice(p);
  }

  // ---------------------------------------------------------------------------
  // Every way the page changes the cart.

  /** The sidebar's per-line buttons: minus, plus and the trash can. */
  datatype Button = Minus(id: string) | Plus(id: string) | Trash(id: string)

  /** A button press: minus and plus send deltas of -1 and +1 to the stepper,
      the trash can deletes the line. */
  function Press(cart: Cart, b: Button): (r: Cart)
    ensures Valid(cart) ==> Valid(r)
    ensures Valid(cart) ==> Without(r, b.id) == Without(cart, b.id)
  {
    match b
    case Minus(id) => if Valid(cart) then UpdateQuantityEffect(cart, id, -1); UpdateQuantity(cart, id, -1) else UpdateQuantity(cart, id, -1)
    case Plus(id) => if Valid(cart) then UpdateQuantityEffect(cart, id, 1); UpdateQuantity(cart, id, 1) else UpdateQuantity(cart, id, 1)
    case Trash(id) => DeleteLine(cart, id)
  }

  /** A product card's add or remove, or a sidebar button. */
  datatype CartAction = AddProduct(p: Product) | RemoveProduct(p: Product) | PressButton(b: Button)

  function Apply(cart: Cart, a: CartAction): Cart {
    match a
    case AddProduct(p) => AddToCart(cart, p)
    case RemoveProduct(p) => RemoveFromCart(cart, p)
    case PressButton(b) => Press(cart, b)
  }

  function ApplyAll(cart: Cart, actions: seq<CartAction>): Cart
    decreases |actions|
  {
    if actions == [] then cart else ApplyAll(Apply(cart, actions[0]), actions[1..])
  }

  /** Whatever the customer does, starting from the empty cart every line
      keeps a distinct id and a quantity of at least one. */
  lemma {:induction false} ActionsKeepValid(cart: Cart, actions: seq<CartAction>)
    requires Valid(cart)
    ensures Valid(ApplyAll(cart, actions))
    decreases |actions|
  {
    if actions != [] {
      ActionsKeepValid(Apply(cart, actions[0]), actions[1..]);
    }
  }

  lemma EmptyCartValid()
    ensures Valid([]) && TotalItems([]) == 0 && TotalPrice([]) == 0 && Summary([]).None?
  {}
}

=== FILE: catalogue.dfy ===
/** The shop's fixed product catalogue. */
module Catalogue {
  datatype Category = Dairy | Bakery | Sweets | Beverages

  /** A catalogue product. Prices are whole rupees. The image, description and
      freshness flag are display-only and not modelled. */
  datatype Product = Product(
    id: string, name: string, hindiName: string, price: int, category: Category, unit: string)

  /** The category chips, in the order they are shown. */
  const CATEGORIES: seq<Category> := [Dairy, Bakery, Sweets, Beverages]

  const PRODUCTS: seq<Product> := [
    Product("d1", "Full Cream Milk", "फुल क्रीम दूध", 66, Dairy, "1L"),
    Product("d2", "Fresh Paneer", "ताजा पनीर", 110, Dairy, "200g"),
    Product("d3", "Desi Ghee", "देसी घी", 650, Dairy, "1L"),
    Product("b1", "Chocolate Truffle Cake", "चॉकलेट ट्रफल केक", 450, Bakery, "0.5kg"),
    Product("b2", "Fruit Biscuits", "फ्रूट बिस्कुट", 120, Bakery, "250g"),
    Product("b3", "Brown Bread", "ब्राउन ब्रेड", 45, Bakery, "400g"),
    Product("s1", "Gulab Jamun", "गुलाब जामुन", 180, Sweets, "500g"),
    Product("v1", "Fresh Lassi", "ताजा लस्सी", 30, Beverages, "250ml")
  ]

  /** Every catalogue product has a distinct id and a positive price, and
      every category chip has at least one product. */
  lemma CatalogueWellFormed()
    ensures forall i, j :: 0 <= i < j < |PRODUCTS| ==> PRODUCTS[i].id != PRODUCTS[j].id
    ensures forall i :: 0 <= i < |PRODUCTS| ==> PRODUCTS[i].price > 0
    ensures forall c :: c in CATEGORIES ==> exists i :: 0 <= i < |PRODUCTS| && PRODUCTS[i].category == c
  {
    assert PRODUCTS[0].category == Dairy && PRODUCTS[3].category == Bakery;
    assert PRODUCTS[6].category == Sweets && PRODUCTS[7].category == Beverages;
  }
}

=== FILE: checkout.dfy ===
/** The checkout sequencer of the cloth-bag modal: six steps walked in order,
    collecting the delivery method, the contact details and the payment method
    (with an optional proof-of-payment image), ending in a receipt whose
    "Done" action hands the order to the storefront and resets the session. */
module Checkout {
  import opened Wrappers
  import Text

  datatype Step = Promise | Delivery | Details | Payment | QrPayment | Success

  /** `'pickup' | 'delivery'` in the source. */
  datatype DeliveryMethod = Pickup | HomeDelivery

  datatype PaymentMethod = Cash | Online

  datatype CustomerDetails = CustomerDetails(name: string, mobile: string, address: string)

  /** The modal's state hooks. The screenshot is the data URL the file reader
      produced, or None while nothing has been uploaded. */
  datatype Session = Session(
    step: Step,
    delivery: Option<DeliveryMethod>,
    payment: Option<PaymentMethod>,
    screenshot: Option<string>,
    details: CustomerDetails)

  /** What `onFinalConfirm` receives. */
  datatype Order = Order(
    delivery: DeliveryMethod,
    payment: PaymentMethod,
    details: CustomerDetails,
    screenshot: Option<string>)

  /** One user action on the modal. */
  datatype Event =
    | IPromise                                 // "I Promise to be Green"
    | ChooseDelivery(deliveryMethod: DeliveryMethod)
    | EditName(name: string)
    | EditMobile(mobile: string)
    | EditAddress(address: string)
    | SubmitDetails                            // "Continue to Payment"
    | ChoosePayment(paymentMethod: PaymentMethod)
    | AttachScreenshot(dataUrl: string)
    | ConfirmPaid                              // "I have Paid"
    | Back
    | Finish                                   // "Done", or closing the receipt

  /** The session after an event, and the order handed over, if any. */
  datatype Outcome = Outcome(session: Session, order: Option<Order>)

  /** The pickup address, one string written in three pieces. */
  const SHOP_ADDRESS: string := "Sudha Dairy & Bakers: " + "Opposite BSNL Tower, " + "Rayala Chauraha Main"
  const MIN_MOBILE_LENGTH: nat := 10
  const EMPTY_DETAILS: CustomerDetails := CustomerDetails("", "", "")
  const INITIAL: Session := Session(Promise, None, None, None, EMPTY_DETAILS)

  /** Position of a step in the forward order. */
  function Index(st: Step): nat {
    match st
    case Promise => 0
    case Delivery => 1
    case Details => 2
    case Payment => 3
    case QrPayment => 4
    case Success => 5
  }

  /** The transition table of the sequencer, written out independently of the
      handlers: the forward moves, the four one-step back moves and the reset
      that follows the receipt. */
  const EDGES: set<(Step, Step)> := {
    (Promise, Delivery), (Delivery, Details), (Details, Payment),
    (Payment, QrPayment), (Payment, Success), (QrPayment, Success),
    (Delivery, Promise), (Details, Delivery), (Payment, Details), (QrPayment, Payment),
    (Success, Promise)
  }

  /** `isDetailsValid`: name and address not blank, and a mobile number of at
      least ten UTF-16 code units once surrounding white space is dropped. */
  predicate DetailsValid(d: CustomerDetails) {
    && Text.Trim(d.name) != ""
    && Text.Utf16Length(Text.Trim(d.mobile)) >= MIN_MOBILE_LENGTH
    && Text.Trim(d.address) != ""
  }

  /** A screenshot counts as attached when it is a non-empty string. */
  predicate HasProof(shot: Option<string>) {
    shot.Some? && shot.value != ""
  }

  /** `isPaidDisabled`: home delivery with no proof attached. */
  predicate PaidDisabled(s: Session) {
    s.delivery == Some(HomeDelivery) && !HasProof(s.screenshot)
  }

  /** Which controls the modal renders, enabled, at the current step. */
  predicate Offered(s: Session, e: Event) {
    match e
    case IPromise => s.step == Promise
    case ChooseDelivery(_) => s.step == Delivery
    case EditName(_) => s.step == Details
    case EditMobile(_) => s.step == Details
    case EditAddress(_) => s.step == Details && s.delivery != Some(Pickup)
    case SubmitDetails => s.step == Details && DetailsValid(s.details)
    case ChoosePayment(_) => s.step == Payment
    case AttachScreenshot(_) => s.step == QrPayment
    case ConfirmPaid => s.step == QrPayment && !PaidDisabled(s)
    case Back => s.step != Promise && s.step != Success
    case Finish => s.step == Success
  }

  // ---------------------------------------------------------------------------
  // The handlers, as the component defines them (each runs only when offered).

  function DeliverySelection(s: Session, m: DeliveryMethod): Session {
    var address := if m == Pickup then SHOP_ADDRESS else "";
    s.(delivery := Some(m), details := s.details.(address := address), step := Details)
  }

  /** `handleDetailsSubmit` repeats the check that the form's `required`
      fields make: every field non-empty. */
  function DetailsSubmit(s: Session): Session {
    if s.details.name != "" && s.details.mobile != "" && s.details.address != ""
    then s.(step := Payment)
    else s
  }

  function PaymentSelection(s: Session, m: PaymentMethod): Session {
    s.(payment := Some(m), step := if m == Online then QrPayment else Success)
  }

  /** The back button tests the step it was rendered at, once per step. */
  function BackStep(st: Step): Step {
    match st
    case Delivery => Promise
    case Details => Delivery
    case Payment => Details
    case QrPayment => Payment
    case _ => st
  }

  /** `handleFinish`: hand over the order when both methods are known, then reset. */
  function FinishSession(s: Session): Outcome {
    var order :=
      if s.delivery.Some? && s.payment.Some?
      then Some(Order(s.delivery.value, s.payment.value, s.details, s.screenshot))
      else None;
    Outcome(INITIAL, order)
  }

  /** The reachability invariant of the sequencer. */
  ghost predicate Inv(s: Session) {
    StepInv(s) && (Index(s.step) >= Index(Payment) ==> DetailsValid(s.details))
  }

  /** The part of the invariant about the choices made, apart from the details check. */
  ghost predicate StepInv(s: Session) {
    && (Index(s.step) >= Index(Details) ==> s.delivery.Some?)
    && (Index(s.step) >= Index(Details) && s.delivery == Some(Pickup) ==> s.details.address == SHOP_ADDRESS)
    && (s.step == QrPayment ==> s.payment == Some(Online))
    && (s.step == Success ==> s.payment.Some?)
    && (s.step == Success && s.payment == Some(Online) && s.delivery == Some(HomeDelivery) ==>
          HasProof(s.screenshot))
  }

  /** One step of the sequencer: an action that is not offered changes nothing,
      only finishing the receipt emits an order, and finishing resets. */
  function Next(s: Session, e: Event): (r: Outcome)
    ensures !Offered(s, e) ==> r == Outcome(s, None)
    ensures r.order.Some? ==> e == Finish && s.step == Success
    ensures e == Finish && s.step == Success ==> r.session == INITIAL
  {
    if !Offered(s, e) then Outcome(s, None)
    else
      match e
      case IPromise => Outcome(s.(step := Delivery), None)
      case ChooseDelivery(m) => Outcome(DeliverySelection(s, m), None)
      case EditName(v) => Outcome(s.(details := s.details.(name := v)), None)
      case EditMobile(v) => Outcome(s.(details := s.details.(mobile := v)), None)
      case EditAddress(v) => Outcome(s.(details := s.details.(address := v)), None)
      case SubmitDetails => Outcome(DetailsSubmit(s), None)
      case ChoosePayment(m) => Outcome(PaymentSelection(s, m), None)
      case AttachScreenshot(v) => Outcome(s.(screenshot := Some(v)), None)
      case ConfirmPaid => Outcome(s.(step := Success), None)
      case Back => Outcome(s.(step := BackStep(s.step)), None)
      case Finish => FinishSession(s)
  }

  /** The session after a sequence of events. */
  function Run(s: Session, es: seq<Event>): Session
    decreases |es|
  {
    if es == [] then s else Run(Next(s, es[0]).session, es[1..])
  }

  // ---------------------------------------------------------------------------
  // Properties.

  /** Every move of the step is an edge of the transition table. */
  lemma NextFollowsTable(s: Session, e: Event)
    ensures var t := Next(s, e).session;
      t.step == s.step || (s.step, t.step) in EDGES
  {
  }

  /** Every action keeps the reachability invariant. */
  lemma NextKeepsInv(s: Session, e: Event)
    requires Inv(s)
    ensures Inv(Next(s, e).session)
  {
    var t := Next(s, e).session;
    NextKeepsStepInv(s, e);
    NextDetailsFrame(s, e);
    if Index(t.step) >= Index(Payment) {
      if t.details == s.details && Index(s.step) >= Index(Payment) {
      } else {
        assert e == SubmitDetails && Offered(s, e);
      }
    }
  }

  /** Every action keeps the choice part of the invariant. */
  lemma NextKeepsStepInv(s: Session, e: Event)
    requires StepInv(s)
    ensures StepInv(Next(s, e).session)
  {
  }

  /** Reaching a payment-or-later step either keeps the details of a session
      already past the details form, or is the accepted details submission. */
  lemma NextDetailsFrame(s: Session, e: Event)
    ensures var t := Next(s, e).session;
      Index(t.step) >= Index(Payment) ==>
        (t.details == s.details && Index(s.step) >= Index(Payment))
        || (e == SubmitDetails && Offered(s, e) && t.details == s.details)
  {
  }

  lemma FreshSessionKeepsInv(s: Session)
    requires s.step == Promise
    ensures Inv(s)
  {
  }

  /** The sequencer starts at the promise, which satisfies the invariant, and
      the promise leads to the choice of delivery method. */
  lemma InitialIsPromise()
    ensures INITIAL.step == Promise && Inv(INITIAL)
    ensures Next(INITIAL, IPromise).session.step == Delivery
  {
    FreshSessionKeepsInv(INITIAL);
  }

  /** Every session reachable from the initial one satisfies the invariant. */
  lemma {:induction false} RunKeepsInv(s: Session, es: seq<Event>)
    requires Inv(s)
    ensures Inv(Run(s, es))
    decreases |es|
  {
    if es != [] {
      NextKeepsInv(s, es[0]);
      RunKeepsInv(Next(s, es[0]).session, es[1..]);
    }
  }

  /** At the receipt both methods are chosen and the details pass the check. */
  lemma SuccessIsComplete(s: Session)
    requires Inv(s) && s.step == Success
    ensures s.delivery.Some? && s.payment.Some?
    ensures DetailsValid(s.details)
  {
  }

  /** Every run from the initial session that ends at the receipt has both
      methods chosen and details that pass the check. */
  lemma ReachedSuccessIsComplete(es: seq<Event>)
    requires Run(INITIAL, es).step == Success
    ensures Run(INITIAL, es).delivery.Some? && Run(INITIAL, es).payment.Some?
    ensures DetailsValid(Run(INITIAL, es).details)
  {
    InitialIsPromise();
    RunKeepsInv(INITIAL, es);
    SuccessIsComplete(Run(INITIAL, es));
  }

  /** Choosing a delivery method records it, moves to the details form and sets
      the address: the shop's for pickup (overwriting any earlier value), empty
      for home delivery; name and mobile are kept. */
  lemma ChooseDeliveryEffect(s: Session, m: DeliveryMethod)
    requires s.step == Delivery
    ensures Next(s, ChooseDelivery(m)).session.step == Details
    ensures Next(s, ChooseDelivery(m)).session.delivery == Some(m)
    ensures Next(s, ChooseDelivery(m)).session.details.address ==
              (if m == Pickup then SHOP_ADDRESS else "")
    ensures Next(s, ChooseDelivery(m)).session.details.name == s.details.name
    ensures Next(s, ChooseDelivery(m)).session.details.mobile == s.details.mobile
  {
  }

  /** The details form advances to payment exactly when the details are valid;
      otherwise nothing changes. */
  lemma SubmitDetailsGuard(s: Session)
    requires s.step == Details
    ensures Next(s, SubmitDetails).session.step == Payment <==> DetailsValid(s.details)
    ensures !DetailsValid(s.details) ==> Next(s, SubmitDetails).session == s
    ensures DetailsValid(s.details) ==> Next(s, SubmitDetails).session == s.(step := Payment)
  {
  }

  /** Every character is an ASCII digit. */
  predicate AllDigits(s: string) {
    forall k :: 0 <= k < |s| ==> '0' <= s[k] <= '9'
  }

  /** A nine-digit mobile number is refused, whatever the name and address ... */
  lemma MobileRefused(d: CustomerDetails)
    requires |d.mobile| == 9 && AllDigits(d.mobile)
    ensures !DetailsValid(d)
  {
    Text.TrimUntouched(d.mobile);
    assert forall k :: 0 <= k < |d.mobile| ==> Text.IsBmp(d.mobile[k]);
  }

  /** ... and a ten-digit one accepted once name and address are filled in. */
  lemma MobileAccepted(d: CustomerDetails)
    requires |d.mobile| == 10 && AllDigits(d.mobile)
    requires !Text.IsBlank(d.name) && !Text.IsBlank(d.address)
    ensures DetailsValid(d)
  {
    Text.TrimUntouched(d.mobile);
    assert forall k :: 0 <= k < |d.mobile| ==> Text.IsBmp(d.mobile[k]);
  }

  /** The length test counts UTF-16 code units, as JavaScript's `length` does:
      five characters outside the Basic Multilingual Plane (emoji, say) make a
      mobile of length ten, which the check accepts. */
  lemma AstralMobileAccepted(d: CustomerDetails)
    requires |d.mobile| == 5 && forall k :: 0 <= k < 5 ==> !Text.IsBmp(d.mobile[k])
    requires !Text.IsBlank(d.name) && !Text.IsBlank(d.address)
    ensures DetailsValid(d)
  {
    Text.TrimUntouched(d.mobile);
    assert Text.Utf16Length(d.mobile) == 2 * |d.mobile|;
  }

  /** Online payment shows the QR code; cash goes straight to the receipt.
      The method is recorded either way. */
  lemma ChoosePaymentEffect(s: Session, m: PaymentMethod)
    requires s.step == Payment
    ensures Next(s, ChoosePayment(m)).session.payment == Some(m)
    ensures Next(s, ChoosePayment(m)).session.step == (if m == Online then QrPayment else Success)
  {
  }

  /** "I have Paid" moves to the receipt unless home delivery has no proof;
      for pickup it is always enabled. */
  lemma ConfirmPaidGuard(s: Session)
    requires s.step == QrPayment
    ensures Next(s, ConfirmPaid).session.step == Success <==>
              !(s.delivery == Some(HomeDelivery) && !HasProof(s.screenshot))
    ensures s.delivery == Some(Pickup) ==> Next(s, ConfirmPaid).session.step == Success
  {
  }

  /** Attaching a proof enables "I have Paid" for home delivery. */
  lemma AttachEnablesConfirm(s: Session, dataUrl: string)
    requires s.step == QrPayment && dataUrl != ""
    ensures !PaidDisabled(Next(s, AttachScreenshot(dataUrl)).session)
    ensures Next(Next(s, AttachScreenshot(dataUrl)).session, ConfirmPaid).session.step == Success
  {
  }

  /** Back moves exactly one position down the forward order and keeps every
      entered field; it does nothing at the first step and at the receipt. */
  lemma BackIsOneStep(s: Session)
    ensures s.step != Promise && s.step != Success ==>
              Index(Next(s, Back).session.step) + 1 == Index(s.step)
              && Next(s, Back).session == s.(step := Next(s, Back).session.step)
    ensures s.step == Promise || s.step == Success ==> Next(s, Back).session == s
  {
  }

  /** Back from payment returns to the details form with the details intact. */
  lemma BackFromPaymentKeepsDetails(s: Session)
    requires s.step == Payment
    ensures Next(s, Back).session.step == Details
    ensures Next(s, Back).session.details == s.details
    ensures Next(Next(s, Back).session, SubmitDetails).session.step == Payment <==> DetailsValid(s.details)
  {
  }

  /** Finishing hands over the order when both methods are set and always
      resets every field to its initial value. */
  lemma FinishEffect(s: Session)
    requires s.step == Success
    ensures Next(s, Finish).session == INITIAL
    ensures Next(s, Finish).order.Some? <==> s.delivery.Some? && s.payment.Some?
    ensures Next(s, Finish).order.Some? ==>
              Next(s, Finish).order.value.details == s.details
              && Next(s, Finish).order.value.screenshot == s.screenshot
  {
  }

  /** The first four actions of a pickup order: promise, pickup, name, mobile. */
  lemma PickupFillsDetails(s: Session, name: string, mobile: string)
    requires s.step == Promise
    ensures var s1 := Next(s, IPromise).session;
            var s2 := Next(s1, ChooseDelivery(Pickup)).session;
            var s3 := Next(s2, EditName(name)).session;
            var s4 := Next(s3, EditMobile(mobile)).session;
            && s1.step == Delivery && s2.step == Details && s3.step == Details
            && s4 == s.(step := Details, delivery := Some(Pickup),
                        details := CustomerDetails(name, mobile, SHOP_ADDRESS))
  {
    var s1 := Next(s, IPromise).session;
    ChooseDeliveryEffect(s1, Pickup);
  }

  /** The last two actions: submit valid details, pay in cash. */
  lemma CashAfterDetails(s: Session)
    requires s.step == Details && DetailsValid(s.details)
    ensures var s5 := Next(s, SubmitDetails).session;
            var s6 := Next(s5, ChoosePayment(Cash)).session;
            s5 == s.(step := Payment) && s6 == s.(step := Success, payment := Some(Cash))
  {
    SubmitDetailsGuard(s);
  }

  /** From the first step, a pickup order paid in cash whose name and mobile
      pass the details check reaches the receipt in six actions without visiting
      the QR step, with the shop's address filled in. */
  lemma PickupCashSkipsQr(s: Session, name: string, mobile: string)
    requires s.step == Promise
    requires DetailsValid(CustomerDetails(name, mobile, SHOP_ADDRESS))
    ensures var s1 := Next(s, IPromise).session;
            var s2 := Next(s1, ChooseDelivery(Pickup)).session;
            var s3 := Next(s2, EditName(name)).session;
            var s4 := Next(s3, EditMobile(mobile)).session;
            var s5 := Next(s4, SubmitDetails).session;
            var s6 := Next(s5, ChoosePayment(Cash)).session;
            && [s1.step, s2.step, s3.step, s4.step, s5.step, s6.step]
                 == [Delivery, Details, Details, Details, Payment, Success]
            && s6.details == CustomerDetails(name, mobile, SHOP_ADDRESS)
            && s6.delivery == Some(Pickup) && s6.payment == Some(Cash)
  {
    PickupFillsDetails(s, name, mobile);
    var s4 := s.(step := Details, delivery := Some(Pickup),
                 details := CustomerDetails(name, mobile, SHOP_ADDRESS));
    CashAfterDetails(s4);
  }

  /** The worked example: Asha, mobile 9876543210, pickup, cash, from a fresh session. */
  lemma PickupCashExample()
    ensures var s1 := Next(INITIAL, IPromise).session;
            var s2 := Next(s1, ChooseDelivery(Pickup)).session;
            var s3 := Next(s2, EditName("Asha")).session;
            var s4 := Next(s3, EditMobile("9876543210")).session;
            var s5 := Next(s4, SubmitDetails).session;
            Next(s5, ChoosePayment(Cash)).session.step == Success
  {
    var name, mobile := "Asha", "9876543210";
    assert name[0] == 'A';
    assert SHOP_ADDRESS[0] == 'S';
    MobileAccepted(CustomerDetails(name, mobile, SHOP_ADDRESS));
    PickupCashSkipsQr(INITIAL, name, mobile);
  }
}

=== FILE: countdown.dfy ===
/** The countdown hub: community events, the per-tick split of the time left
    into days, hours, minutes and seconds, the two-digit display of each unit,
    and the per-category badge colour and icon. */
module Countdown {
  datatype CountdownCategory = Birthday | Anniversary | Festival | Special

  /** A community countdown. `date` is the ISO-like string the form produced. */
  datatype CountdownEvent = CountdownEvent(
    id: string, name: string, date: string, category: CountdownCategory, createdBy: string)

  const MS_PER_SECOND := 1000
  const MS_PER_MINUTE := 60 * MS_PER_SECOND
  const MS_PER_HOUR := 60 * MS_PER_MINUTE
  const MS_PER_DAY := 24 * MS_PER_HOUR

  datatype TimeLeft = TimeLeft(days: int, hours: int, minutes: int, seconds: int)

  /** The milliseconds a split stands for. */
  function Millis(t: TimeLeft): int {
    t.days * MS_PER_DAY + t.hours * MS_PER_HOUR + t.minutes * MS_PER_MINUTE + t.seconds * MS_PER_SECOND
  }

  /** Each unit inside its clock range. */
  predicate Normal(t: TimeLeft) {
    t.days >= 0 && 0 <= t.hours < 24 && 0 <= t.minutes < 60 && 0 <= t.seconds < 60
  }

  /** Lexicographic order on (days, hours, minutes, seconds). */
  predicate LexLe(a: TimeLeft, b: TimeLeft) {
    a.days < b.days || (a.days == b.days &&
    (a.hours < b.hours || (a.hours == b.hours &&
    (a.minutes < b.minutes || (a.minutes == b.minutes && a.seconds <= b.seconds)))))
  }

  /** One tick of the countdown: a target already passed shows all zeros;
      otherwise each unit is the floor of the remainder left by the larger
      unit. The distance is a whole number of milliseconds, and for a
      non-negative one JavaScript's `Math.floor(a / b)` and `a % b` agree with
      the Euclidean division used here. */
  function Split(distance: int): (t: TimeLeft)
    ensures distance < 0 ==> t == TimeLeft(0, 0, 0, 0)
    ensures distance >= 0 ==> t.days == distance / MS_PER_DAY
    ensures Normal(t)
    ensures distance >= 0 ==> Millis(t) <= distance < Millis(t) + MS_PER_SECOND
  {
    if distance < 0 then TimeLeft(0, 0, 0, 0)
    else
      SplitRemainders(distance);
      TimeLeft(
        distance / MS_PER_DAY,
        (distance % MS_PER_DAY) / MS_PER_HOUR,
        (distance % MS_PER_HOUR) / MS_PER_MINUTE,
        (distance % MS_PER_MINUTE) / MS_PER_SECOND)
  }

  /** The remainder by a larger unit, taken by a smaller one that divides it,
      is the remainder by the smaller unit. */
  lemma SplitRemainders(d: int)
    requires d >= 0
    ensures (d % MS_PER_DAY) % MS_PER_HOUR == d % MS_PER_HOUR
    ensures (d % MS_PER_HOUR) % MS_PER_MINUTE == d % MS_PER_MINUTE
    ensures (d % MS_PER_MINUTE) % MS_PER_SECOND == d % MS_PER_SECOND
  {
    NestedRemainder(d, 24, MS_PER_HOUR);
    NestedRemainder(d, 60, MS_PER_MINUTE);
    NestedRemainder(d, 60, MS_PER_SECOND);
  }

  lemma NestedRemainder(d: int, k: int, m: int)
    requires d >= 0 && k > 0 && m > 0
    ensures (d % (k * m)) % m == d % m
  {
    var q, r := d / (k * m), d % (k * m);
    assert d == q * (k * m) + r;
    var h, x := r / m, r % m;
    assert r == h * m + x;
    assert d == (q * k + h) * m + x;
    RemainderUnique(d, m, q * k + h, x);
  }

  lemma RemainderUnique(a: int, m: int, q: int, r: int)
    requires m > 0 && a == q * m + r && 0 <= r < m
    ensures a % m == r
  {
    var q0, r0 := a / m, a % m;
    var k := q - q0;
    assert k * m == r0 - r by {
      assert q * m == q0 * m + k * m;
    }
    if k >= 1 {
      MulAtLeast(k, m);
    } else if k <= -1 {
      MulAtLeast(-k, m);
    }
  }

  lemma MulAtLeast(k: int, m: int)
    requires k >= 1 && m > 0
    ensures k * m >= m
  {
    assert k * m == (k - 1) * m + m;
    assert (k - 1) * m >= 0;
  }

  /** A distance of exactly 0 shows all zeros through the non-negative branch. */
  lemma ZeroDistance()
    ensures Split(0) == TimeLeft(0, 0, 0, 0)
  {}

  /** Between normal splits, lexicographic order and the order of the
      milliseconds they stand for agree, a whole second apart. */
  lemma {:induction false} LexMillis(a: TimeLeft, b: TimeLeft)
    requires Normal(a) && Normal(b) && !LexLe(a, b)
    ensures Millis(b) + MS_PER_SECOND <= Millis(a)
  {
    if a.days > b.days {
      assert a.days * MS_PER_DAY >= b.days * MS_PER_DAY + MS_PER_DAY;
    }
  }

  /** Less time left never shows a larger countdown. */
  lemma SplitMonotone(d1: int, d2: int)
    requires d1 <= d2
    ensures LexLe(Split(d1), Split(d2))
  {
    var a, b := Split(d1), Split(d2);
    if !LexLe(a, b) {
      LexMillis(a, b);
      assert false;
    }
  }

  // ---------------------------------------------------------------------------
  // Display of one unit: `value.toString().padStart(2, '0')`.

  function DigitChar(d: int): char
    requires 0 <= d < 10
  {
    "0123456789"[d]
  }

  predicate IsDigit(c: char) {
    '0' <= c <= '9'
  }

  function DigitValue(c: char): int
    requires IsDigit(c)
  {
    c as int - '0' as int
  }

  /** `Number.prototype.toString()` for a non-negative whole number: no
      leading zero, except for zero itself. */
  function ToDecimal(n: nat): (s: string)
    ensures 1 <= |s| && (n < 10 <==> |s| == 1)
    ensures forall k :: 0 <= k < |s| ==> IsDigit(s[k])
    ensures s[0] == '0' <==> n == 0
  {
    if n < 10 then [DigitChar(n)] else ToDecimal(n / 10) + [DigitChar(n % 10)]
  }

  /** Reads a string of decimal digits. */
  function ParseDecimal(s: string): int
    requires forall k :: 0 <= k < |s| ==> IsDigit(s[k])
  {
    if s == [] then 0 else 10 * ParseDecimal(s[..|s| - 1]) + DigitValue(s[|s| - 1])
  }

  lemma {:induction false} DecimalRoundTrip(n: nat)
    ensures ParseDecimal(ToDecimal(n)) == n
  {
    var s := ToDecimal(n);
    if n >= 10 {
      DecimalRoundTrip(n / 10);
      assert s[..|s| - 1] == ToDecimal(n / 10);
    }
  }

  /** `String.prototype.padStart(width, fill)`. */
  function PadStart(s: string, width: nat, fill: char): (r: string)
    ensures |r| == if |s| >= width then |s| else width
    ensures r[|r| - |s|..] == s
    ensures forall k :: 0 <= k < |r| - |s| ==> r[k] == fill
  {
    if |s| >= width then s else seq(width - |s|, _ => fill) + s
  }

  /** What a `TimeUnit` box shows for `value`. */
  function Pad2(value: nat): (r: string)
    ensures |r| >= 2
    ensures value < 10 ==> r == ['0', DigitChar(value)]
    ensures value >= 10 ==> r == ToDecimal(value)
  {
    PadStart(ToDecimal(value), 2, '0')
  }

  /** The padding never changes the number that is read back. */
  lemma Pad2RoundTrip(value: nat)
    ensures forall k :: 0 <= k < |Pad2(value)| ==> IsDigit(Pad2(value)[k])
    ensures ParseDecimal(Pad2(value)) == value
  {
    DecimalRoundTrip(value);
    if value < 10 {
      var r := Pad2(value);
      assert r[..1] == "0";
    }
  }

  // ---------------------------------------------------------------------------
  // Category styling.

  datatype Icon = CakeIcon | HeartIcon | SparklesIcon | TimerIcon

  const DEFAULT_COLOR := "bg-emerald-500 text-white"

  /** `getCategoryIcon`. */
  function CategoryIcon(c: CountdownCategory): (i: Icon)
    ensures i == TimerIcon <==> c == Special
  {
    match c
    case Birthday => CakeIcon
    case Anniversary => HeartIcon
    case Festival => SparklesIcon
    case _ => TimerIcon
  }

  /** `getCategoryColor`. */
  function CategoryColor(c: CountdownCategory): (s: string)
    ensures s == DEFAULT_COLOR <==> c == Special
  {
    match c
    case Birthday => "bg-amber-400 text-amber-900"
    case Anniversary => "bg-rose-500 text-white"
    case Festival => "bg-indigo-500 text-white"
    case _ => DEFAULT_COLOR
  }

  /** Each category has its own colour and its own icon. */
  lemma StylesDistinct(c1: CountdownCategory, c2: CountdownCategory)
    requires c1 != c2
    ensures CategoryColor(c1) != CategoryColor(c2)
    ensures CategoryIcon(c1) != CategoryIcon(c2)
  {
    assert "bg-amber-400 text-amber-900"[3] != "bg-rose-500 text-white"[3];
    assert "bg-amber-400 text-amber-900"[3] != "bg-indigo-500 text-white"[3];
    assert "bg-rose-500 text-white"[3] != "bg-indigo-500 text-white"[3];
  }
}

=== FILE: countdown_form.dfy ===
/** The "set a countdown" form: its fields, the category picker and the submit
    handler that validates the fields and gives a bare date a midnight time. */
module CountdownForm {
  import opened Wrappers
  import opened Countdown

  /** What the form holds: a countdown event without its id. */
  datatype Draft = Draft(name: string, date: string, category: CountdownCategory, createdBy: string)

  /** The form when first opened and after every successful submit. */
  const EMPTY_FORM := Draft("", "", Birthday, "")

  const MIDNIGHT := "T00:00:00"

  /** A date without a time part gets midnight appended; one with a time part
      (any `T`) is kept as typed. */
  function NormalizeDate(date: string): (r: string)
    ensures 'T' in r
    ensures |date| <= |r| && r[..|date|] == date
    ensures 'T' in date <==> r == date
    ensures 'T' !in date ==> r[|date|..] == MIDNIGHT
  {
    if 'T' in date then date
    else
      assert (date + MIDNIGHT)[|date|] == 'T';
      date + MIDNIGHT
  }

  /** Normalising twice is normalising once. */
  lemma NormalizeIdempotent(date: string)
    ensures NormalizeDate(NormalizeDate(date)) == NormalizeDate(date)
  {}

  /** Whether the handler let the draft through, and what the modal does. */
  datatype SubmitResult = SubmitResult(form: Draft, submitted: Option<Draft>, closed: bool)

  /** `handleSubmit`: a missing name, date or creator is refused silently;
      otherwise the draft goes out with its date normalised, the modal closes
      and the form resets. */
  function Submit(form: Draft): (r: SubmitResult)
    ensures r.submitted.None? <==> form.name == "" || form.date == "" || form.createdBy == ""
    ensures r.submitted.None? ==> r.form == form && !r.closed
    ensures r.submitted.Some? ==>
      r.closed && r.form == EMPTY_FORM &&
      r.submitted.value.name == form.name &&
      r.submitted.value.category == form.category &&
      r.submitted.value.createdBy == form.createdBy &&
      r.submitted.value.date == NormalizeDate(form.date)
  {
    if form.name == "" || form.date == "" || form.createdBy == "" then SubmitResult(form, None, false)
    else SubmitResult(EMPTY_FORM, Some(form.(date := NormalizeDate(form.date))), true)
  }

  /** The category picker changes the category and nothing else. */
  function PickCategory(form: Draft, c: CountdownCategory): (r: Draft)
    ensures r.category == c
    ensures r.name == form.name && r.date == form.date && r.createdBy == form.createdBy
  {
    form.(category := c)
  }

  /** After a successful submit the reset form would be refused: a second
      press cannot send the same countdown twice. */
  lemma NoDoubleSubmit(form: Draft)
    requires Submit(form).submitted.Some?
    ensures Submit(Submit(form).form).submitted.None?
  {}

  /** A submitted countdown always carries a time part, so it parses as a
      local date-time. */
  lemma SubmittedDateHasTime(form: Draft)
    requires Submit(form).submitted.Some?
    ensures 'T' in Submit(form).submitted.value.date
  {}

  /** The category the picker last chose is the one submitted. */
  lemma PickedCategorySubmitted(form: Draft, first: CountdownCategory, c: CountdownCategory)
    requires form.name != "" && form.date != "" && form.createdBy != ""
    ensures var d := PickCategory(PickCategory(form, first), c);
      Submit(d).submitted == Some(Draft(form.name, NormalizeDate(form.date), c, form.createdBy))
  {}
}

=== FILE: seqs.dfy ===
/** Sequence relations shared by the list-shaped parts of the model. */
module Seqs {

  /** `a` is `b` with some elements dropped and the rest in order: what every
      `Array.prototype.filter` returns. */
  predicate IsSubsequence<T(==)>(a: seq<T>, b: seq<T>)
    decreases |b|
  {
    a == [] || (b != [] && ((a[0] == b[0] && IsSubsequence(a[1..], b[1..])) || IsSubsequence(a, b[1..])))
  }
}

=== FILE: storefront.dfy ===
/** The storefront page: the wishlist, the product grid's filter, the community
    countdown list, and what placing an order does to the page. */
module Storefront {
  import opened Wrappers
  import opened Catalogue
  import opened Seqs
  import Cart
  import Checkout
  import Countdown
  import CountdownForm

  // ---------------------------------------------------------------------------
  // The wishlist.

  /** `toggleWishlist`: flips the membership of `id` and of nothing else. */
  function ToggleWishlist(w: set<string>, id: string): (r: set<string>)
    ensures id in r <==> id !in w
    ensures forall x :: x != id ==> (x in r <==> x in w)
    ensures |r| == if id in w then |w| - 1 else |w| + 1
  {
    if id in w then w - {id} else w + {id}
  }

  /** Toggling twice restores the wishlist. */
  lemma ToggleTwice(w: set<string>, id: string)
    ensures ToggleWishlist(ToggleWishlist(w, id), id) == w
  {}

  // ---------------------------------------------------------------------------
  // The product grid.

  /** The selected chip: all products, the wishlist, or one category. */
  datatype Filter = All | Wishlisted | Only(category: Category)

  /** `prefix` starts `s`. */
  predicate IsPrefix(prefix: string, s: string) {
    |prefix| <= |s| && s[..|prefix|] == prefix
  }

  /** `String.prototype.includes`: `sub` occurs somewhere in `s`. */
  predicate Includes(s: string, sub: string)
    decreases |s|
  {
    IsPrefix(sub, s) || (s != [] && Includes(s[1..], sub))
  }

  /** The chip test: `All`, a wishlisted product under `Wishlist`, or the
      product's own category. */
  predicate CategoryMatches(p: Product, f: Filter, wishlist: set<string>) {
    f == All || (f == Wishlisted && p.id in wishlist) || (f.Only? && p.category == f.category)
  }

  /** The search test: the English name, lower-cased, contains the lower-cased
      query, or the Hindi name contains the query as typed. `lower` stands for
      `toLowerCase`, whose Unicode case mapping is not modelled. */
  predicate SearchMatches(p: Product, query: string, lower: string -> string) {
    Includes(lower(p.name), lower(query)) || Includes(p.hindiName, query)
  }

  predicate Shown(p: Product, f: Filter, wishlist: set<string>, query: string, lower: string -> string) {
    CategoryMatches(p, f, wishlist) && SearchMatches(p, query, lower)
  }

  /** `filteredProducts`: the products passing both tests. */
  function FilterProducts(ps: seq<Product>, f: Filter, wishlist: set<string>, query: string,
                          lower: string -> string): (r: seq<Product>)
    ensures forall p :: p in r <==> p in ps && Shown(p, f, wishlist, query, lower)
    ensures |r| <= |ps|
  {
    if ps == [] then []
    else (if Shown(ps[0], f, wishlist, query, lower) then [ps[0]] else [])
         + FilterProducts(ps[1..], f, wishlist, query, lower)
  }

  /** The grid keeps the catalogue's order. */
  lemma {:induction false} FilterKeepsOrder(ps: seq<Product>, f: Filter, wishlist: set<string>,
                                            query: string, lower: string -> string)
    ensures IsSubsequence(FilterProducts(ps, f, wishlist, query, lower), ps)
  {
    if ps != [] {
      var rest := FilterProducts(ps[1..], f, wishlist, query, lower);
      FilterKeepsOrder(ps[1..], f, wishlist, query, lower);
      if Shown(ps[0], f, wishlist, query, lower) {
        assert ([ps[0]] + rest)[1..] == rest;
      } else {
        assert FilterProducts(ps, f, wishlist, query, lower) == rest;
      }
    }
  }

  lemma {:induction false} IncludesEmpty(s: string)
    ensures Includes(s, "")
  {}

  /** With the `All` chip and an empty search every product is shown, when
      lower-casing keeps the empty string empty. */
  lemma {:induction false} AllAndEmptyShowsEverything(ps: seq<Product>, wishlist: set<string>, lower: string -> string)
    requires lower("") == ""
    ensures FilterProducts(ps, All, wishlist, "", lower) == ps
  {
    if ps != [] {
      IncludesEmpty(lower(ps[0].name));
      AllAndEmptyShowsEverything(ps[1..], wishlist, lower);
      assert [ps[0]] + ps[1..] == ps;
    }
  }

  /** The wishlist chip shows only wishlisted products and a category chip
      only that category. */
  lemma ChipsRestrict(ps: seq<Product>, f: Filter, wishlist: set<string>, query: string,
                      lower: string -> string, p: Product)
    requires p in FilterProducts(ps, f, wishlist, query, lower)
    ensures f == Wishlisted ==> p.id in wishlist
    ensures f.Only? ==> p.category == f.category
  {}

  // ---------------------------------------------------------------------------
  // The page state touched by placing an order.

  datatype User = User(name: string, mobile: string, ordersCount: int, joinDate: string, avatar: string)

  datatype Page = Page(
    cart: Cart.Cart, wishlist: set<string>, filter: Filter, query: string, user: Option<User>)

  /** `handleFinalOrderPlace`: empties the cart, clears the filter and the
      search, and counts the order for a signed-in customer. */
  function FinalOrderPlace(pg: Page): (r: Page)
    ensures r.cart == [] && r.filter == All && r.query == "" && r.wishlist == pg.wishlist
    ensures r.user.Some? <==> pg.user.Some?
    ensures pg.user.Some? ==> r.user.value == pg.user.value.(ordersCount := pg.user.value.ordersCount + 1)
  {
    var user := if pg.user.Some? then Some(pg.user.value.(ordersCount := pg.user.value.ordersCount + 1)) else None;
    pg.(cart := [], filter := All, query := "", user := user)
  }

  /** The page after one checkout action: an emitted order is placed, and
      without one the page is left alone. */
  function AfterCheckout(pg: Page, out: Checkout.Outcome): (r: Page)
    ensures out.order.None? ==> r == pg
    ensures out.order.Some? ==>
      r.cart == [] && r.filter == All && r.query == "" && r.wishlist == pg.wishlist &&
      (r.user.Some? <==> pg.user.Some?) &&
      (pg.user.Some? ==> r.user.value.ordersCount == pg.user.value.ordersCount + 1)
  {
    if out.order.Some? then FinalOrderPlace(pg) else pg
  }

  /** Only "Done" on the receipt reaches the page: every other checkout
      action leaves cart, chip, search and orders as they were. */
  lemma OnlyFinishTouchesPage(pg: Page, s: Checkout.Session, e: Checkout.Event)
    requires e != Checkout.Finish
    ensures AfterCheckout(pg, Checkout.Next(s, e)) == pg
  {}

  /** Finishing a checkout that reached its receipt always places the order:
      the cart empties and a signed-in customer's order count rises by one. */
  lemma FinishingPlacesOrder(s: Checkout.Session, pg: Page)
    requires Checkout.Inv(s) && s.step == Checkout.Success
    ensures Checkout.Next(s, Checkout.Finish).order.Some?
    ensures AfterCheckout(pg, Checkout.Next(s, Checkout.Finish)).cart == []
    ensures pg.user.Some? ==>
      AfterCheckout(pg, Checkout.Next(s, Checkout.Finish)).user.value.ordersCount == pg.user.value.ordersCount + 1
  {
    Checkout.SuccessIsComplete(s);
    Checkout.FinishEffect(s);
  }

  // ---------------------------------------------------------------------------
  // The community countdowns.

  /** `handleSetCountdown`: the new event goes first under a clock-derived id. */
  function SetCountdown(events: seq<Countdown.CountdownEvent>, name: string, date: string,
                        category: Countdown.CountdownCategory, createdBy: string, id: string)
    : (r: seq<Countdown.CountdownEvent>)
    ensures |r| == |events| + 1 && r[1..] == events
    ensures r[0] == Countdown.CountdownEvent(id, name, date, category, createdBy)
  {
    [Countdown.CountdownEvent(id, name, date, category, createdBy)] + events
  }

  /** A countdown stored from an accepted form keeps the form's fields, with a
      date that always has a time part. */
  lemma StoredCountdownHasTime(events: seq<Countdown.CountdownEvent>, form: CountdownForm.Draft, id: string)
    requires CountdownForm.Submit(form).submitted.Some?
    ensures var d := CountdownForm.Submit(form).submitted.value;
      var r := SetCountdown(events, d.name, d.date, d.category, d.createdBy, id);
      && r[0].name == form.name && r[0].category == form.category && r[0].createdBy == form.createdBy
      && 'T' in r[0].date && r[0].date[..|form.date|] == form.date
  {}
}

=== FILE: text.dfy ===
/** String helpers shared by the form handlers: ECMAScript `String.prototype.trim`
    and the "is this field blank" test built on it. */
module Text {

  /** The code points `trim` removes: ECMAScript WhiteSpace (tab, vertical tab,
      form feed, space, no-break space, byte order mark and the Zs category)
      and LineTerminator (line feed, carriage return, U+2028, U+2029). */
  predicate IsSpace(c: char) {
    || c == '\t' || c == '\n' || c == '\U{000B}' || c == '\U{000C}' || c == '\r'
    || c == ' ' || c == '\U{00A0}' || c == '\U{1680}'
    || ('\U{2000}' <= c <= '\U{200A}')
    || c == '\U{2028}' || c == '\U{2029}' || c == '\U{202F}' || c == '\U{205F}'
    || c == '\U{3000}' || c == '\U{FEFF}'
  }

  /** Every character of `s` is white space (the empty string included). */
  predicate IsBlank(s: string) {
    forall k :: 0 <= k < |s| ==> IsSpace(s[k])
  }

  /** A character JavaScript stores in one UTF-16 code unit. */
  predicate IsBmp(c: char) {
    c as int <= 0xFFFF
  }

  /** `s.length` in JavaScript: UTF-16 code units, two for every character
      outside the Basic Multilingual Plane. */
  function Utf16Length(s: string): (n: nat)
    ensures |s| <= n <= 2 * |s|
    ensures n == |s| <==> forall k :: 0 <= k < |s| ==> IsBmp(s[k])
    ensures n == 2 * |s| <==> forall k :: 0 <= k < |s| ==> !IsBmp(s[k])
  {
    if s == [] then 0
    else
      var rest := Utf16Length(s[1..]);
      assert forall k :: 1 <= k < |s| ==> s[k] == s[1..][k - 1];
      (if IsBmp(s[0]) then 1 else 2) + rest
  }

  /** `length` adds up over concatenation ... */
  lemma {:induction false} Utf16Append(a: string, b: string)
    ensures Utf16Length(a + b) == Utf16Length(a) + Utf16Length(b)
    decreases |a|
  {
    if a == [] {
      assert a + b == b;
    } else {
      Utf16Append(a[1..], b);
      assert (a + b)[0] == a[0] && (a + b)[1..] == a[1..] + b;
    }
  }

  /** ... and one character counts one code unit, or two outside the Basic
      Multilingual Plane; together these fix the length of every string. */
  lemma Utf16Single(c: char)
    ensures Utf16Length([c]) == if IsBmp(c) then 1 else 2
  {
    assert [c][1..] == [];
  }

  /** Two digits and four emoji make ten code units. */
  lemma Utf16Mixed(digits: string, emoji: string)
    requires |digits| == 2 && forall k :: 0 <= k < 2 ==> '0' <= digits[k] <= '9'
    requires |emoji| == 4 && forall k :: 0 <= k < 4 ==> !IsBmp(emoji[k])
    ensures Utf16Length(digits + emoji) == 10
  {
    Utf16Append(digits, emoji);
    assert forall k :: 0 <= k < |digits| ==> IsBmp(digits[k]);
  }

  /** The length of the longest all-white-space prefix of `s`. */
  function LeadingSpaces(s: string): (n: nat)
    ensures n <= |s|
    ensures forall k :: 0 <= k < n ==> IsSpace(s[k])
    ensures n < |s| ==> !IsSpace(s[n])
  {
    if s != [] && IsSpace(s[0]) then 1 + LeadingSpaces(s[1..]) else 0
  }

  /** Drops the longest all-white-space prefix of `s`. */
  function TrimStart(s: string): (r: string)
    ensures |r| <= |s| && r == s[|s| - |r|..]
    ensures forall k :: 0 <= k < |s| - |r| ==> IsSpace(s[k])
    ensures r != [] ==> !IsSpace(r[0])
  {
    s[LeadingSpaces(s)..]
  }

  /** Drops the longest all-white-space suffix of `s`. */
  function TrimEnd(s: string): (r: string)
    ensures |r| <= |s| && r == s[..|r|]
    ensures forall k :: |r| <= k < |s| ==> IsSpace(s[k])
    ensures r != [] ==> !IsSpace(r[|r| - 1])
  {
    if s != [] && IsSpace(s[|s| - 1]) then TrimEnd(s[..|s| - 1]) else s
  }

  /** `s.trim()`: white space removed at both ends; empty exactly when `s` is blank. */
  function Trim(s: string): (r: string)
    ensures |r| <= |s|
    ensures exists i, j :: 0 <= i <= j <= |s| && r == s[i..j] && IsBlank(s[..i]) && IsBlank(s[j..])
    ensures r == [] <==> IsBlank(s)
    ensures r != [] ==> !IsSpace(r[0]) && !IsSpace(r[|r| - 1])
  {
    var t := TrimStart(s);
    var r := TrimEnd(t);
    EmptyTrimIsBlank(s, t, r);
    TrimIsInfix(s, t, r);
    r
  }

  /** What the two trims leave is a slice of `s` with only white space
      around it. */
  lemma TrimIsInfix(s: string, t: string, r: string)
    requires t == TrimStart(s) && r == TrimEnd(t)
    ensures exists i, j :: 0 <= i <= j <= |s| && r == s[i..j] && IsBlank(s[..i]) && IsBlank(s[j..])
  {
    var i := |s| - |t|;
    assert r == s[i..i + |r|];
    assert s[i + |r|..] == t[|r|..];
  }

  /** If the trim is empty, the start trim already consumed all of `s`: a
      non-empty start trim begins with a visible character. */
  lemma EmptyTrimIsBlank(s: string, t: string, r: string)
    requires t == TrimStart(s) && r == TrimEnd(t)
    ensures r == [] ==> IsBlank(s)
  {
  }

  /** A string that starts and ends with a visible character is its own trim. */
  lemma TrimUntouched(s: string)
    requires s != [] && !IsSpace(s[0]) && !IsSpace(s[|s| - 1])
    ensures Trim(s) == s
  {
    assert LeadingSpaces(s) == 0;
    assert TrimStart(s) == s;
  }

  /** A trimmed string has nothing left to trim. */
  lemma TrimIdempotent(s: string)
    ensures Trim(Trim(s)) == Trim(s)
  {
    var t := Trim(s);
    if t != [] {
      assert !IsSpace(t[0]);
      assert TrimStart(t) == t;
      assert TrimEnd(t) == t;
    }
  }
}

=== FILE: wrappers.dfy ===
/** The optional value used throughout the model for the source's `null`,
    `undefined` and "not found" results. */
module Wrappers {

  datatype Option<+T> = None | Some(value: T)
}
